=== FILE: README.md ===
# Vue 2 runtime bookkeeping, modelled in Dafny

This project models five pieces of bookkeeping in the Vue 2 runtime core and
proves properties about them. Each piece is explicit, immutable state with pure
transition functions:

- **The deferred-callback queue** behind `nextTick`, module `NextTick` in
  `next_tick.dfy`. It holds the `callbacks` FIFO and the `pending` gate, which is closed while `pending` holds.
  - The host's scheduling primitive `timerFunc` becomes a counter of drains
    that have been requested but have not started.
  - What a user callback does is a parameter: the `nextTick` calls it makes,
    and whether it throws.
- **The dependency subject `Dep` and the tracking stack**, module `Deps` in
  `dep.dfy`. It covers:
  - uid allocation, `addSub`, `removeSub` and `depend`;
  - `notify`, over a snapshot that is sorted by id in synchronous development
    mode;
  - `pushTarget` / `popTarget`, which keep `Dep.target` equal to the top of
    `targetStack`.
- **Array mutator interception**, module `ArrayMethods` in `array.dfy`.
  - Seven mutating methods are wrapped; the array is a `seq<T>`.
  - Each wrapper runs the stock method, computes the inserted elements, hands
    them to `observeArray`, and notifies exactly once.
- **The instance event registry**, module `Events` in `events.dfy`. It covers
  `$on`, `$once`, `$off`, `$emit` and `createOnceHandler`.
  - Listener functions are values of a datatype. The two wrapper closures carry
    what they capture, and a serial number stands for their identity as fresh
    objects.
  - A user function's behaviour is a parameter: the registry operations it
    performs, and whether it returns `null`, returns something else, or
    throws.
- **The global registries**:
  - `Vue.use`, module `Plugins` in `use.dfy`;
  - `Vue.extend`, module `Extension` in `extend.dfy`;
  - the asset registers `Vue.component` / `Vue.directive` / `Vue.filter`,
    module `Assets` in `assets.dfy`.

  How the global registries are modelled:
  - Constructors are held in a sequence indexed by their cid.
  - Plain option objects live in a small heap, because `extend` caches
    constructors on them (`_Ctor`) and component registration writes their
    `name`.
  - `mergeOptions` is an opaque function parameter.

`base.dfy` (module `Base`) holds the shared vocabulary: `Option` for an absent
`undefined`/`null`, occurrence counting, and `indexOf`.

Where this model deliberately follows the code rather than a looser reading of
it:

- **Array mutators.** `if (inserted) ob.observeArray(inserted)` treats an empty
  array as truthy. So `observeArray` is called (with an empty list) for every
  push, unshift and splice, even when nothing is inserted. `Mutator` records
  that call.
- **`removeSub`.** It relies on the shared `remove` helper, which is not part of
  this model. It is taken to delete the first occurrence found by
  `indexOf`, as the Vue 2 `remove` utility does.
- **Single-listener `$emit`.** With one listener, `$emit` iterates the live
  array instead of a copy. The cached loop bound still keeps later additions
  out of the current emission, so `Emit` describes both cases with one
  snapshot.

## Model

| member | source | states |
|---|---|---|
| Base.IndexOf | src/core/global-api/use.js:10 | `indexOf` under `===`: the first position holding the value, or -1 exactly when it is absent |
| NextTick.NextTick | src/core/util/next-tick.js:109-128 | exactly one wrapped entry is appended at the end and no earlier entry changes; afterwards `pending` holds; a drain is scheduled only if `pending` was false, so at most one drain is ever outstanding |
| NextTick.NextTickAll | src/core/util/next-tick.js:109-128 | a burst of calls queues its entries in call order and schedules a drain only when the gate was open (`pending` false) and the burst was non-empty |
| NextTick.OneDrainPerBurst | src/core/util/next-tick.js:124-128 | from an idle queue, any non-empty burst schedules exactly one drain and queues exactly its own entries |
| NextTick.InitialBurst | src/core/util/next-tick.js:10-11 | the module starts with an empty queue and an open gate, which satisfies the gate discipline, so the first burst of calls schedules exactly one drain |
| NextTick.FlushCallbacks | src/core/util/next-tick.js:13-23 | the gate is opened (`pending` reset) and the queue emptied before anything runs; the snapshot runs in order; callbacks queued during the drain go to the fresh queue and close the gate again, scheduling the next drain rather than running in this one; the gate discipline is preserved |
| NextTick.DrainRunsSnapshotInOrder | src/core/util/next-tick.js:112-122 | every callback in the snapshot runs exactly once, in enqueue order, whether or not earlier ones throw (a throw is caught and reported) |
| NextTick.PromiseEntryResolves | src/core/util/next-tick.js:119-134 | an entry pushed without a callback resolves its promise with `ctx` when drained if a promise was returned, and otherwise does nothing |
| Deps.NewDep | src/core/observer/dep.js:20-23 | a new dep takes the current `uid` as id, has no subscribers, and the counter advances past it |
| Deps.CreateDeps | src/core/observer/dep.js:7-23 | deps created one after another have consecutive ids from `uid`, unique and strictly increasing in creation order |
| Deps.AddSub | src/core/observer/dep.js:26-28 | the watcher is appended at the end; the earlier subscribers and the id are unchanged |
| Deps.AddSubCountsOnceMore | src/core/observer/dep.js:26-28 | `addSub` does not deduplicate: the watcher occurs once more than before |
| Deps.RemoveSub | src/core/observer/dep.js:30-32 | an absent watcher leaves the list unchanged; otherwise exactly its first occurrence is removed and the rest keep their order |
| Deps.RemoveSubTakesOne | src/core/observer/dep.js:30-32 | removal takes away one occurrence of the watcher when there is one, and nothing else |
| Deps.AddThenRemove | src/core/observer/dep.js:26-32 | subscribing a watcher that was not subscribed and then unsubscribing it restores the dep |
| Deps.AddDuplicateThenRemove | src/core/observer/dep.js:26-32 | re-adding a subscribed watcher and then removing it removes the older occurrence, leaving the re-added copy at the end |
| Deps.Depend | src/core/observer/dep.js:34-38 | without a current target nothing happens; otherwise exactly one `addDep(this)` call on the target |
| Deps.SortById | src/core/observer/dep.js:44-49 | the sorted snapshot has ascending ids and exactly the same watchers |
| Deps.SortedArrangementIsUnique | src/core/observer/dep.js:44-49 | there is only one id-ascending arrangement of a subscriber list, so the synchronous update order does not depend on subscription order |
| Deps.Snapshot | src/core/observer/dep.js:43-49 | the list iterated is a copy of `subs`, sorted only in synchronous development mode and otherwise in subscription order |
| Deps.Deliver | src/core/observer/dep.js:50-52 | the loop updates exactly the snapshot it is given, in order, whatever those updates do to the live list, and their edits take effect one after another |
| Deps.EditMovesCount | src/core/observer/dep.js:26-32 | a `Subscribe(w)` edit adds exactly one occurrence of `w`; an `Unsubscribe(w)` edit removes at most one; an edit for another watcher leaves the count of `w` alone |
| Deps.EditsMoveCounts | src/core/observer/dep.js:26-32 | after a run of edits, the count of `w` is at most its old count plus the `Subscribe(w)` edits, and at least that minus the `Unsubscribe(w)` edits |
| Deps.Notify | src/core/observer/dep.js:41-53 | the watchers updated are exactly the snapshot (same multiset, sorted by id in synchronous development mode, otherwise in subscription order) whatever the updates do to the live list |
| Deps.PushTarget | src/core/observer/dep.js:68-71 | the pushed watcher becomes `Dep.target`, the stack grows by it, and the target is the top of the stack |
| Deps.PopTarget | src/core/observer/dep.js:74-77 | the top is dropped (an empty stack stays empty) and the target becomes the new top, or absent |
| Deps.PushThenPop | src/core/observer/dep.js:68-77 | a push followed by a pop restores the previous target and stack |
| Deps.NestedEvaluationRestores | src/core/observer/dep.js:68-77 | any number of pushes followed by as many pops restores the outer target and stack |
| Deps.TrackingFromLoad | src/core/observer/dep.js:64-77 | at module load `Dep.target` is the top of the empty stack, reads register with nobody, and any nested evaluation returns to that state |
| Deps.DependReachesCurrentWatcher | src/core/observer/dep.js:34-38 | between push and pop, `depend` registers with exactly the pushed watcher; after the pop, with the previous target |
| ArrayMethods.SevenMethodsPatched | src/core/observer/array.js:12-20 | the patched list has the seven names of `methodsToPatch`, pairwise distinct, and covers every mutator the model defines; this checks the model's method table against itself |
| ArrayMethods.Lookup | src/core/observer/array.js:8-29 | a name found on `arrayMethods` is a patched method of that name; any other name falls through to `Array.prototype` |
| ArrayMethods.LookupFindsEachPatched | src/core/observer/array.js:25-29 | each of the seven names is intercepted by its own wrapper |
| ArrayMethods.LookupOnlyPatched | src/core/observer/array.js:8-20 | a name is intercepted if and only if it is one of the seven |
| ArrayMethods.Mutator | src/core/observer/array.js:29-48 | the wrapper applies and returns exactly the stock method's effect and result; it notifies exactly once; it calls `observeArray` exactly for push, unshift and splice, on exactly the items that call inserts (`args` for push and unshift, `args.slice(2)` for splice); what is in the array afterwards plus what the call handed back equals what was there plus what was observed |
| ArrayMethods.ElementAccounting | src/core/observer/array.js:31-45 | for every method, the elements observed are exactly the ones that entered the array |
| ArrayMethods.PushThenPop | src/core/observer/array.js:27-31 | pushing an element and popping returns it and restores the array |
| ArrayMethods.UnshiftThenShift | src/core/observer/array.js:27-31 | unshifting an element and shifting returns it and restores the array |
| ArrayMethods.ReverseTwice | src/core/observer/array.js:27-31 | reversing twice restores the array |
| ArrayMethods.SpliceUndo | src/core/observer/array.js:27-43 | a splice is undone by splicing back at the same position, deleting the inserted items and re-inserting the removed ones; the undo hands back exactly the inserted items |
| Events.OnOne | src/core/instance/events.js:62-72 | `fn` is appended to the event's list, which is created when absent or cleared; the hook flag is raised exactly for `hook:` names and never lowered |
| Events.OnOneFrame | src/core/instance/events.js:64 | registering under one name leaves every other name's entry unchanged |
| Events.OnAppendsPerOccurrence | src/core/instance/events.js:58-64 | `$on` with an array of names appends `fn` to each listed event once per occurrence, in array order, and registers every name |
| Events.OnLeavesOtherNames | src/core/instance/events.js:58-64 | `$on` leaves events it is not given as they were |
| Events.OnRaisesHookFlag | src/core/instance/events.js:58-71 | `_hasHookEvent` becomes true exactly when a given name starts with `hook:`, and `$on` never resets it |
| Events.LastMatch | src/core/instance/events.js:119-127 | the backwards search finds the last listener that is `fn` or wraps it, or reports that there is none |
| Events.OffOne | src/core/instance/events.js:107-128 | an unregistered event is untouched; without `fn` the entry becomes `null`; with `fn`, at most one listener goes (the last match) and the others keep their order; other events are untouched |
| Events.Off | src/core/instance/events.js:93-106 | `$off()` drops every event; with names, every name not given is untouched, and without `fn` every name given ends with no listeners; the hook flag is never lowered |
| Events.OffOneFrame | src/core/instance/events.js:108-127 | `$off` for one name leaves every other name's entry unchanged |
| Events.OffNamesAppend | src/core/instance/events.js:101-106 | `$off` over an array of names handles them one after another, in array order |
| Events.OffArrayItemByItem | src/core/instance/events.js:101-106 | `$off(array, fn)` equals `$off(array[0], fn)` followed by `$off` of the rest, where an item may itself be an array |
| Events.OffLeavesOtherNames | src/core/instance/events.js:101-106 | `$off` with an array of names leaves every name it is not given as it was |
| Events.OffWithoutFnClears | src/core/instance/events.js:101-117 | `$off(array)` without `fn` leaves every listed name with no listeners, and sets a listed name that had a list to `null` |
| Events.OnThenOff | src/core/instance/events.js:119-127 | `$on(e, fn)` followed by `$off(e, fn)` on a registered event restores the registry |
| Events.OnceThenOff | src/core/instance/events.js:77-90 | because the `$once` wrapper records `fn`, `$off(e, fn)` removes it before it fires and restores the registry |
| Events.CreateOnceHandler | src/core/instance/events.js:32-40 | the handler wraps `fn` for the event and registers nothing; on a well-formed instance it is a new closure, distinct from every registered listener, and the instance stays well formed |
| Events.CurrentIdentityIsFresh | src/core/instance/events.js:32-40 | a wrapper given the current identity counter is not registered under any name of a well-formed instance |
| Events.FreshIsWellFormed | src/core/instance/events.js:12-14 | a new instance has no listeners, so it is well formed |
| Events.OnOneKeepsWellFormed | src/core/instance/events.js:62-64 | registering a function created before keeps every listener older than the counter |
| Events.OnceKeepsWellFormed | src/core/instance/events.js:77-90 | `$once` registers a wrapper with a new identity and keeps the instance well formed |
| Events.OffKeepsWellFormed | src/core/instance/events.js:93-129 | `$off` only removes listeners, so the instance stays well formed |
| Events.InvokeKeepsWellFormed | src/core/instance/events.js:32-40 | calling a listener, wrapper or handler keeps the instance well formed and never lowers the counter |
| Events.EmitKeepsWellFormed | src/core/instance/events.js:154-161 | an emission keeps the instance well formed whatever its listeners register or remove, so wrappers created afterwards are still new |
| Events.OnceHandlerRemovesItself | src/core/instance/events.js:32-40 | the handler calls `fn` first. When `fn` returns anything but `null`, the handler is no longer a listener of its event afterwards, whatever `fn` registered or removed meanwhile. When `fn` returns `null` or throws, the registry is exactly what `fn` left. Nothing `fn` does adds the handler back or adds another listener that matches it. The hypotheses are that at most one listener of the event matches the handler and that user functions register only functions created before it |
| Events.OnceHandlerRegisteredLast | src/core/instance/events.js:32-40 | concrete case: a fresh handler registered last around a function that touches no registry leaves the event's list as it was before registration after a non-`null` return, and keeps itself at the end after a `null` return or a throw |
| Events.Deliver | src/core/instance/events.js:159-161 | every listener of the list is called exactly once, in order |
| Events.Emit | src/core/instance/events.js:154-161 | the listeners called are exactly those registered when the emission starts, in registration order, each once, whatever they add or remove meanwhile |
| Events.OnceFiresOnce | src/core/instance/events.js:77-90 | the emission that finds a `$once` wrapper registered calls it exactly once; one that does not find it calls it never. Afterwards the wrapper is no longer registered, and the next emission does not call it. This holds whatever the listeners register or remove and whether they throw. The hypotheses are that at most one listener of the event matches the wrapper and that user functions register only functions created before it |
| Events.OnceFiresOnceAlone | src/core/instance/events.js:77-90 | concrete case: on an otherwise empty event, around a function that touches no registry, the first emission makes exactly one call and reports how `fn` ended; it leaves no listeners, and the second emission calls nothing |
| Events.OnceWrapperRemovesItself | src/core/instance/events.js:80-84 | the `$once` wrapper calls `$off(event, on)` before `fn`. So after the call it is not a listener of its event, whatever `fn` does, and the call reports a throw exactly when `fn` threw |
| Events.OnceRegistersSingleMatch | src/core/instance/events.js:77-90 | `$once(e, fn)` on a well-formed instance appends one new wrapper, and no other listener of `e` is it or wraps it. This meets the hypothesis of `Events.OnceFiresOnce` |
| Events.OffRemovesSingleMatch | src/core/instance/events.js:119-127 | when at most one listener matches `fn` and it can only be `fn` itself, `$off(e, fn)` leaves `fn` unregistered |
| Events.InvokeStep | src/core/instance/events.js:77-90 | no call of a listener, wrapper or handler re-registers a wrapper created after every function user code registers, or adds a listener that wraps it |
| Events.EmitStep | src/core/instance/events.js:154-161 | an emission of any event never brings such a wrapper back once it is gone from an event |
| Plugins.InstallArgs | src/core/global-api/use.js:15-17 | the installer receives the receiver first, then the extra arguments in order |
| Plugins.Use | src/core/global-api/use.js:7-28 | an installed plugin returns at once, with no call and no change. Otherwise the installer is called once, with the receiver first: through `install` with the plugin as `this`, else directly with `null`, else not at all. The plugin is appended only if that call returns; a throwing installer leaves the list unchanged |
| Plugins.ThrowingInstallerRetried | src/core/global-api/use.js:18-26 | an installer that throws leaves its plugin unlisted, so the next `use` of that plugin calls the installer again |
| Plugins.UseListsOnce | src/core/global-api/use.js:8-26 | after `use`, the list stays free of duplicates and lists the plugin exactly once, or not at all if its installer threw |
| Plugins.UseIsIdempotent | src/core/global-api/use.js:10-12 | once `use(p)` has returned, another `use(p)` calls nothing and changes nothing |
| Plugins.UseKeepsInstalledOnce | src/core/global-api/use.js:10-26 | one more `use` call keeps the run's invariant: an installer that returned is never called again, no plugin listed beforehand is installed, an installer that returned leaves its plugin listed, the receiver is passed first, and the list only grows |
| Plugins.EachPluginInstalledOnce | src/core/global-api/use.js:8-27 | over any sequence of `use` calls the invariant holds from the starting list, and every plugin passed with an installer that does not throw ends up listed |
| Extension.Boot | src/core/global-api/index.js:57-69 | the base constructor is cid 0, with no super, and the registry invariants hold |
| Extension.WithOptionsObject | src/core/global-api/extend.js:23 | a missing options object is replaced by a fresh `{}`; constructors are unchanged |
| Extension.NewSub | src/core/global-api/extend.js:38-97 | the new constructor takes the next cid and is recorded with its super, its options and its cache entry. Only the options object changes in the heap, and only in its cache. The registry invariants are preserved |
| Extension.Extend | src/core/global-api/extend.js:22-98 | a cache hit returns the cached constructor and changes nothing. A miss creates the next cid. The new constructor records `super`, `superOptions` and `extendOptions` as given, inherits the super's statics, registers itself under its effective name, and seals a copy of its options; it is cached on the options object under the super's cid. Older constructors are unchanged, and so is every heap object other than the options object. On a miss that object gains a cache entry and otherwise keeps its `name`, `bind` and `update`. The invariants are kept |
| Extension.ExtendIsCached | src/core/global-api/extend.js:27-30 | extending the same options object from the same super twice yields the same constructor, and the second call changes nothing |
| Extension.DistinctSupersDistinctCtors | src/core/global-api/extend.js:25-30 | the cache is keyed by the super's cid: one options object extended from two supers yields two constructors, each recording its own super |
| Extension.SubRegistersItself | src/core/global-api/extend.js:82-84 | with a truthy effective name, the new constructor finds itself under that name in its own components |
| Extension.StaticsInherited | src/core/global-api/extend.js:70-79 | every constructor carries the base constructor's `extend`, `mixin`, `use` and asset registers |
| Assets.Normalise | src/core/global-api/assets.js:31-41 | a plain-object component is named `name \|\| id` and becomes a constructor extended from `_base` and cached on the object; a function directive becomes a fresh `{ bind: f, update: f }`; anything else is unchanged. Every heap object other than the component's options object is untouched |
| Assets.NormaliseComponent | src/core/global-api/assets.js:31-37 | the object is renamed `name \|\| id` and extended from `_base`. The result is a constructor whose super is `_base` and whose `extendOptions` is the object. The constructor is cached on the object under `_base`'s cid. Older constructors and every other heap object are unchanged |
| Assets.NormaliseDirective | src/core/global-api/assets.js:38-41 | a function directive becomes a new object whose `bind` and `update` are that function; constructors and every existing heap object are unchanged |
| Assets.Store | src/core/global-api/assets.js:44-45 | the definition is stored under `id` in the receiver's register for the type and is what a lookup then returns; every other key, register and constructor is unchanged |
| Assets.Define | src/core/global-api/assets.js:31-45 | with a definition, the value stored and returned is exactly `Assets.Normalise`'s. The heap and constructors are `Normalise`'s, and on top only the receiver's register changes, at `id`. A plain-object component yields an existing constructor. Every other key, registry, constructor and heap object is unchanged, except the component's own options object |
| Assets.Register | src/core/global-api/assets.js:20-46 | without a definition the stored value is returned and nothing changes. With one, the value returned is exactly what `Assets.Normalise` produces. The resulting heap and constructors are `Normalise`'s, except that the receiver's register now holds that value under `id`, so a lookup returns it. A plain-object component therefore yields a constructor that exists. Every other key, registry and constructor is unchanged, and so is every heap object except a component's options object |
| Assets.FilterStoredAsGiven | src/core/global-api/assets.js:31-45 | a filter is stored exactly as given and looked up again unchanged |
| Assets.DirectiveFunctionNormalised | src/core/global-api/assets.js:38-41 | a function directive is stored as an object whose `bind` and `update` are that function |
| Assets.ComponentObjectRegisteredTwice | src/core/global-api/assets.js:31-37 | registering one plain object as a component twice yields one constructor; a non-empty first id sticks as the object's name |

## Left out

- Choosing the scheduling primitive is left out: Promise, MutationObserver, `setImmediate`, `setTimeout`, the iOS timer workaround and `isUsingMicroTask`. These are host-environment I/O, so a single counter of requested drains stands in for them.
- Promise construction and the timing of its resolution in `nextTick` are left out. The model records only that an entry without a callback resolves with `ctx` when it is drained.
- `handleError`, `invokeWithErrorHandling`, `observeArray`, `Watcher.addDep` and `Watcher.update` are not part of this model. They appear only as the calls made to them, or as the outcomes they report.
- Deduplication inside watchers and the scheduler queue are not part of this model.
- `mergeOptions` is an opaque function parameter. `validateComponentName` only warns and is left out.
- `initProps` and `initComputed` in `extend` are left out, because the prototype proxies they define (`proxy`, `defineComputed`) are not part of this model.
- Prototype creation (`Object.create`, the `constructor` link) in `extend` is left out.
- Lookups that go through the prototype chain of merged registries are left out.
- The development-mode casing tip in `$emit` is left out. It is a warning message with no effect on state.
- The sort comparator of the patched `sort` is left out: a sort call carries the arrangement it produces, which must contain the same elements.
- Non-integer or non-numeric `splice` arguments are left out; splice takes optional integers.
- `Vue.mixin`, the wiring in `src/core/global-api/index.js` and `src/core/instance/index.js`, and the compiler entry point are left out. They are plumbing around the pieces modelled here.
- `use`, `$on`, `$once`, `$off` and `$emit` return the receiver, for chaining. That return value is not modelled.
- Events.Emit: a listener may register, remove or `$once` listeners while it runs, but it may not call `$emit` itself. Nested emission is not modelled.
- Events.Matches: a user function that carries its own `fn` property is treated as not matching. Only `$once` wrappers match through `cb.fn`.
- Extension.Extend: options are values, not shared objects. `superOptions` is a snapshot, and a later registration on the super is not visible through it, as it would be through the aliased object.
- Assets.Register: `_base` is whatever the receiver's options hold, and it must name an existing constructor. Falsy primitive definitions other than an absent one are not modelled.
- Deps.Notify: each `update` is taken to return normally. `notify` has no `try`, so an `update` that throws would end delivery early and leave `notify`; that path is not modelled.
- Plugins.Use: an installer that itself calls `use` is not modelled. Such a call would list another plugin, or recurse on the same one, before the outer plugin is pushed. An installer's exception is modelled as leaving `use` with the plugin unlisted.
- Events.OnceFiresOnce: assumes at most one listener of the event matches the wrapper. `$once([e, e], fn)` registers the wrapper twice. Both copies are in the emission's snapshot, so `fn` runs twice, and that case is not covered. Nested `$emit` from a listener is not covered either: a listener before the wrapper that emits the same event calls the wrapper from the inner snapshot, and the outer snapshot then calls it again.
- Events.OnceHandlerRemovesItself: assumes at most one listener of the event matches the handler. It also assumes user functions register only functions created before the handler. A listener that re-registers the closure it reads back from `_events` is not modelled. Nested `$emit` from a listener is not covered: a `fn` that emits the handler's own event re-enters the handler before its `$off` runs.
- Events.EmitKeepsWellFormed: user functions are taken to register only functions that already exist (user functions or wrappers created earlier). This is the precondition `BehaviourBelow`. A wrapper cannot be forged from user code.
- Deps.Depend: `Dep.target` being `null` and being `undefined` after the last pop are not distinguished; both mean "no target".

=== FILE: array.dfy ===
/** Interception of the seven mutating array methods
    (src/core/observer/array.js).

    An array is a `seq<T>`. Each patched method runs the original
    `Array.prototype` method, works out which elements were newly inserted,
    hands exactly those to `observeArray`, and notifies the array's dep
    once. `observeArray` and `dep.notify` are not part of this model: the
    wrapper's use of them is recorded in its outcome. */
module ArrayMethods {
  import opened Base

  datatype Method = Push | Pop | Shift | Unshift | Splice | Sort | Reverse

  /** `methodsToPatch`, in source order. */
  const MethodsToPatch: seq<Method> := [Push, Pop, Shift, Unshift, Splice, Sort, Reverse]

  function Name(m: Method): string
  {
    match m
    case Push => "push"
    case Pop => "pop"
    case Shift => "shift"
    case Unshift => "unshift"
    case Splice => "splice"
    case Sort => "sort"
    case Reverse => "reverse"
  }

  /** Exactly seven methods are patched, each once, and they are all the
      mutators there are. */
  lemma SevenMethodsPatched()
    ensures |MethodsToPatch| == 7
    ensures NoDuplicates(MethodsToPatch)
    ensures forall m: Method :: m in MethodsToPatch
  {
    forall m: Method ensures m in MethodsToPatch {
      match m
      case Push => assert MethodsToPatch[0] == m;
      case Pop => assert MethodsToPatch[1] == m;
      case Shift => assert MethodsToPatch[2] == m;
      case Unshift => assert MethodsToPatch[3] == m;
      case Splice => assert MethodsToPatch[4] == m;
      case Sort => assert MethodsToPatch[5] == m;
      case Reverse => assert MethodsToPatch[6] == m;
    }
  }

  function FindPatched(ms: seq<Method>, name: string): (r: Option<Method>)
    ensures r.Some? ==> r.value in ms && Name(r.value) == name
    ensures r.None? ==> forall m :: m in ms ==> Name(m) != name
  {
    if ms == [] then None
    else if Name(ms[0]) == name then Some(ms[0])
    else FindPatched(ms[1..], name)
  }

  /** Property lookup on `arrayMethods`: one of the seven is found as an own
      (patched) property; any other name falls through to the stock
      `Array.prototype` method, shown here as `None`. */
  function Lookup(name: string): (r: Option<Method>)
    ensures r.Some? ==> Name(r.value) == name
    ensures r.None? ==> forall m: Method :: Name(m) != name
  {
    SevenMethodsPatched();
    FindPatched(MethodsToPatch, name)
  }

  /** The names of the seven patched methods. */
  const PatchedNames: set<string> := {"push", "pop", "shift", "unshift", "splice", "sort", "reverse"}

  /** Every patched name is intercepted by its own wrapper. */
  lemma LookupFindsEachPatched(m: Method)
    ensures Lookup(Name(m)) == Some(m)
  {
    match m
    case Push =>
    case Pop =>
    case Shift =>
    case Unshift =>
    case Splice =>
    case Sort =>
    case Reverse =>
  }

  /** A name is intercepted exactly when it is one of the seven; any other
      (`map`, `slice`, `concat`, ...) keeps the stock method. */
  lemma LookupOnlyPatched(name: string)
    ensures Lookup(name).Some? <==> name in PatchedNames
  {
    if name in PatchedNames {
      var m :=
        if name == "push" then Push else if name == "pop" then Pop
        else if name == "shift" then Shift else if name == "unshift" then Unshift
        else if name == "splice" then Splice else if name == "sort" then Sort
        else Reverse;
      assert Name(m) == name;
    }
  }

  /** One call of a patched method with its arguments. `splice`'s first two
      arguments are optional; `sort`'s comparator is not modelled, so the
      call carries the arrangement the sort produces. */
  datatype Call<T> =
    | PushCall(items: seq<T>)
    | PopCall
    | ShiftCall
    | UnshiftCall(items: seq<T>)
    | SpliceCall(start: Option<int>, deleteCount: Option<int>, items: seq<T>)
    | SortCall(arrangement: seq<T>)
    | ReverseCall
  {
    function Kind(): Method
    {
      match this
      case PushCall(_) => Push
      case PopCall => Pop
      case ShiftCall => Shift
      case UnshiftCall(_) => Unshift
      case SpliceCall(_, _, _) => Splice
      case SortCall(_) => Sort
      case ReverseCall => Reverse
    }
  }

  /** Calls that can occur on array `a`: splice's arguments are positional
      (items only after a delete count, a delete count only after a start),
      and whatever the comparator, a sort rearranges the same elements. */
  ghost predicate WellFormed<T>(c: Call<T>, a: seq<T>)
  {
    match c
    case SpliceCall(start, deleteCount, items) =>
      (start.None? ==> deleteCount.None?) && (deleteCount.None? ==> items == [])
    case SortCall(arrangement) => multiset(arrangement) == multiset(a)
    case _ => true
  }

  /** What the original method returns. `Receiver` is the array itself. */
  datatype Result<T> = Length(n: nat) | Element(v: T) | Undefined | Removed(elems: seq<T>) | Receiver

  /** The array after the call, and the call's result. */
  datatype Applied<T> = Applied(contents: seq<T>, result: Result<T>)

  function Reversed<T>(s: seq<T>): (r: seq<T>)
    ensures |r| == |s|
    ensures forall i :: 0 <= i < |s| ==> r[i] == s[|s| - 1 - i]
  {
    if s == [] then [] else [s[|s| - 1]] + Reversed(s[..|s| - 1])
  }

  /** Where splice starts: a negative start counts from the end, and the
      position is clamped to the array; an absent start is 0. */
  function SpliceStart(start: Option<int>, len: nat): (k: nat)
    ensures k <= len
  {
    var relative := start.GetOr(0);
    if relative < 0 then (if len + relative < 0 then 0 else len + relative)
    else if relative > len then len
    else relative
  }

  /** How many elements splice deletes: none without a start, the rest of
      the array without a delete count, otherwise the count clamped. */
  function SpliceDeleteCount(start: Option<int>, deleteCount: Option<int>, len: nat, k: nat): (n: nat)
    requires k <= len
    ensures k + n <= len
  {
    if start.None? then 0
    else if deleteCount.None? then len - k
    else if deleteCount.value < 0 then 0
    else if deleteCount.value > len - k then len - k
    else deleteCount.value
  }

  /** The stock `Array.prototype` semantics of the seven methods. */
  function Original<T>(a: seq<T>, c: Call<T>): Applied<T>
    requires WellFormed(c, a)
  {
    match c
    case PushCall(items) => Applied(a + items, Length(|a| + |items|))
    case PopCall =>
      if a == [] then Applied(a, Undefined) else Applied(a[..|a| - 1], Element(a[|a| - 1]))
    case ShiftCall =>
      if a == [] then Applied(a, Undefined) else Applied(a[1..], Element(a[0]))
    case UnshiftCall(items) => Applied(items + a, Length(|a| + |items|))
    case SpliceCall(start, deleteCount, items) =>
      var k := SpliceStart(start, |a|);
      var n := SpliceDeleteCount(start, deleteCount, |a|, k);
      Applied(a[..k] + items + a[k + n..], Removed(a[k..k + n]))
    case SortCall(arrangement) => Applied(arrangement, Receiver)
    case ReverseCall => Applied(Reversed(a), Receiver)
  }

  /** The elements a result hands back to the caller as taken out. */
  function Taken<T>(r: Result<T>): seq<T>
  {
    match r
    case Element(v) => [v]
    case Removed(elems) => elems
    case _ => []
  }

  /** What the wrapper did besides the original call: the list given to
      `observeArray` (when it was called) and how many `dep.notify()` calls. */
  datatype Intercepted<T> = Intercepted(contents: seq<T>, result: Result<T>, observed: Option<seq<T>>, notified: nat)

  /** The `inserted` local: all arguments for push and unshift, the
      arguments from the third on for splice, and none otherwise. An empty
      list is still truthy, so `observeArray` is called with it. */
  function Inserted<T>(c: Call<T>): Option<seq<T>>
  {
    match c
    case PushCall(items) => Some(items)
    case UnshiftCall(items) => Some(items)
    case SpliceCall(_, _, items) => Some(items)
    case _ => None
  }

  lemma {:induction false} ReverseKeepsElements<T>(s: seq<T>)
    ensures multiset(Reversed(s)) == multiset(s)
  {
    if s != [] {
      var init := s[..|s| - 1];
      ReverseKeepsElements(init);
      assert Reversed(s) == [s[|s| - 1]] + Reversed(init);
      assert multiset(Reversed(s)) == multiset{s[|s| - 1]} + multiset(Reversed(init));
      assert s == init + [s[|s| - 1]];
    }
  }

  /** `mutator`: the original call's effect and result unchanged, exactly
      one notification, and `observeArray` for the three inserting methods,
      with exactly the elements that entered the array: what is in the
      array afterwards, plus what the call handed back, is what was there
      before plus what was observed. */
  function Mutator<T>(a: seq<T>, c: Call<T>): (r: Intercepted<T>)
    requires WellFormed(c, a)
    ensures Applied(r.contents, r.result) == Original(a, c)
    ensures r.notified == 1
    ensures r.observed.Some? <==> c.Kind() in {Push, Unshift, Splice}
    ensures (c.PushCall? || c.UnshiftCall?) ==> r.observed == Some(c.items)
    ensures c.SpliceCall? ==> r.observed == Some(c.items)
    ensures multiset(r.contents) + multiset(Taken(r.result)) == multiset(a) + multiset(r.observed.GetOr([]))
  {
    ElementAccounting(a, c);
    var applied := Original(a, c);
    Intercepted(applied.contents, applied.result, Inserted(c), 1)
  }

  lemma ElementAccounting<T>(a: seq<T>, c: Call<T>)
    requires WellFormed(c, a)
    ensures multiset(Original(a, c).contents) + multiset(Taken(Original(a, c).result))
         == multiset(a) + multiset(Inserted(c).GetOr([]))
  {
    if c.PopCall? {
      PopAccounting(a);
    } else if c.ShiftCall? {
      ShiftAccounting(a);
    } else if c.SpliceCall? {
      var k := SpliceStart(c.start, |a|);
      SpliceAccounting(a, k, SpliceDeleteCount(c.start, c.deleteCount, |a|, k), c.items);
    } else if c.ReverseCall? {
      ReverseKeepsElements(a);
    } else {
      InsertAccounting(a, c);
    }
  }

  lemma InsertAccounting<T>(a: seq<T>, c: Call<T>)
    requires c.PushCall? || c.UnshiftCall? || c.SortCall?
    requires WellFormed(c, a)
    ensures multiset(Original(a, c).contents) + multiset(Taken(Original(a, c).result))
         == multiset(a) + multiset(Inserted(c).GetOr([]))
  {
  }

  lemma PopAccounting<T>(a: seq<T>)
    ensures multiset(Original(a, PopCall).contents) + multiset(Taken(Original(a, PopCall).result)) == multiset(a)
  {
    if a != [] {
      assert a == a[..|a| - 1] + [a[|a| - 1]];
    }
  }

  lemma ShiftAccounting<T>(a: seq<T>)
    ensures multiset(Original(a, ShiftCall).contents) + multiset(Taken(Original(a, ShiftCall).result)) == multiset(a)
  {
    if a != [] {
      assert a == [a[0]] + a[1..];
    }
  }

  lemma SpliceAccounting<T>(a: seq<T>, k: nat, n: nat, items: seq<T>)
    requires k + n <= |a|
    ensures multiset(a[..k] + items + a[k + n..]) + multiset(a[k..k + n]) == multiset(a) + multiset(items)
  {
    assert a == a[..k] + a[k..k + n] + a[k + n..];
    calc {
      multiset(a[..k] + items + a[k + n..]) + multiset(a[k..k + n]);
      multiset(a[..k]) + multiset(items) + multiset(a[k + n..]) + multiset(a[k..k + n]);
      multiset(a[..k]) + multiset(a[k..k + n]) + multiset(a[k + n..]) + multiset(items);
      multiset(a[..k] + a[k..k + n] + a[k + n..]) + multiset(items);
    }
  }

  /** Pushing one element and popping gives it back and restores the array. */
  lemma PushThenPop<T>(a: seq<T>, x: T)
    ensures Original(Original(a, PushCall([x])).contents, PopCall) == Applied(a, Element(x))
  {
    assert (a + [x])[..|a|] == a;
  }

  /** Unshifting one element and shifting gives it back and restores the array. */
  lemma UnshiftThenShift<T>(a: seq<T>, x: T)
    ensures Original(Original(a, UnshiftCall([x])).contents, ShiftCall) == Applied(a, Element(x))
  {
    assert ([x] + a)[1..] == a;
  }

  /** Reversing twice restores the array. */
  lemma ReverseTwice<T>(a: seq<T>)
    ensures Original(Original(a, ReverseCall).contents, ReverseCall) == Applied(a, Receiver)
  {
    assert Reversed(Reversed(a)) == a;
  }

  /** A splice is undone by a splice at the same position that deletes what
      was inserted and re-inserts what was removed; the undoing splice
      hands back exactly the inserted items. */
  lemma SpliceUndo<T>(a: seq<T>, start: int, deleteCount: Option<int>, items: seq<T>)
    requires deleteCount.None? ==> items == []
    ensures
      var k := SpliceStart(Some(start), |a|);
      var done := Original(a, SpliceCall(Some(start), deleteCount, items));
      Original(done.contents, SpliceCall(Some(k), Some(|items|), Taken(done.result)))
        == Applied(a, Removed(items))
  {
    var k := SpliceStart(Some(start), |a|);
    var n := SpliceDeleteCount(Some(start), deleteCount, |a|, k);
    var b := a[..k] + items + a[k + n..];
    assert SpliceStart(Some(k), |b|) == k;
    assert SpliceDeleteCount(Some(k), Some(|items|), |b|, k) == |items|;
    assert b[..k] == a[..k];
    assert b[k..k + |items|] == items;
    assert b[k + |items|..] == a[k + n..];
    assert a[..k] + a[k..k + n] + a[k + n..] == a;
  }
}

=== FILE: assets.dfy ===
/** The asset registers `Vue.component`, `Vue.directive` and `Vue.filter`
    (src/core/global-api/assets.js): lookup when called without a
    definition, otherwise normalise the definition, store it under `id` in
    the receiver's `options`, and return it. */
module Assets {
  import opened Base
  import opened Extension

  /** `this.options[type + 's'][id]`, `None` when nothing is stored. */
  function Lookup(api: Api, recv: Cid, t: AssetType, id: string): Option<Def>
    requires recv < |api.ctors|
  {
    var m := api.ctors[recv].options.Assets(t);
    if id in m then Some(m[id]) else None
  }

  /** What a register may be called with: a receiver that exists, whose
      `_base` exists, and a definition whose plain object is in the heap. */
  predicate CanRegister(api: Api, recv: Cid, def: Option<Def>)
  {
    && Valid(api)
    && recv < |api.ctors|
    && api.ctors[recv].options.base < |api.ctors|
    && (def.Some? && def.value.Obj? ==> def.value.ref in api.objs)
  }

  /** `definition.name = definition.name || id`. */
  function NameOrId(obj: PlainObj, id: string): PlainObj
  {
    obj.(name := if Truthy(obj.name) then obj.name else Some(id))
  }

  /** `definition.name = definition.name || id` in the heap: only that
      object's `name` changes. */
  function Rename(api: Api, ref: Ref, id: string): (r: Api)
    requires Valid(api) && ref in api.objs
    ensures Valid(r) && r.ctors == api.ctors
    ensures r.objs.Keys == api.objs.Keys && r.objs[ref] == NameOrId(api.objs[ref], id)
    ensures forall x :: x in api.objs && x != ref ==> r.objs[x] == api.objs[x]
  {
    var r := api.(objs := api.objs[ref := NameOrId(api.objs[ref], id)]);
    assert Valid(r) by {
      forall x | x in r.objs ensures CacheValid(r, x) {
        assert CacheValid(api, x);
      }
    }
    r
  }

  /** A plain-object component: `definition.name = definition.name || id`,
      then `this.options._base.extend(definition)`. */
  function NormaliseComponent(api: Api, recv: Cid, id: string, ref: Ref, merge: Merge): (r: (Api, Def))
    requires CanRegister(api, recv, Some(Obj(ref)))
    ensures Valid(r.0) && |api.ctors| <= |r.0.ctors| && r.0.ctors[..|api.ctors|] == api.ctors
    ensures r.1.CtorRef? && r.1.cid < |r.0.ctors|
    ensures r.0.ctors[r.1.cid].super == Some(api.ctors[recv].options.base)
    ensures r.0.ctors[r.1.cid].extendOptions == Some(ref)
    ensures ref in r.0.objs && r.0.objs[ref].name == NameOrId(api.objs[ref], id).name
    ensures api.ctors[recv].options.base in r.0.objs[ref].ctorCache
    ensures r.0.objs[ref].ctorCache[api.ctors[recv].options.base] == r.1.cid
    ensures forall x :: x in api.objs && x != ref ==> x in r.0.objs && r.0.objs[x] == api.objs[x]
  {
    var named := Rename(api, ref, id);
    var (api2, sub) := Extend(named, api.ctors[recv].options.base, Some(ref), merge);
    (api2, CtorRef(sub))
  }

  /** A function directive: `definition = { bind: definition, update:
      definition }`, a fresh object in the heap. */
  function NormaliseDirective(api: Api, d: Def): (r: (Api, Def))
    requires Valid(api)
    ensures Valid(r.0) && r.0.ctors == api.ctors
    ensures r.1.Obj? && r.1.ref !in api.objs && r.1.ref in r.0.objs
    ensures r.0.objs[r.1.ref] == PlainObj(None, Some(d), Some(d), map[])
    ensures forall x :: x in api.objs ==> x in r.0.objs && r.0.objs[x] == api.objs[x]
  {
    var ref := api.nextRef;
    var r := api.(objs := api.objs[ref := PlainObj(None, Some(d), Some(d), map[])], nextRef := ref + 1);
    assert Valid(r) by {
      forall x | x in r.objs ensures x < r.nextRef && CacheValid(r, x) {
        if x != ref { assert CacheValid(api, x); }
      }
    }
    (r, Obj(ref))
  }

  /** The normalisation step. A plain-object component is named and turned
      into a constructor through `_base.extend`; a function directive becomes
      a fresh `{ bind: f, update: f }`; anything else is kept as it is. No
      heap object other than the definition's own changes. */
  function Normalise(api: Api, recv: Cid, t: AssetType, id: string, d: Def, merge: Merge): (r: (Api, Def))
    requires CanRegister(api, recv, Some(d))
    ensures Valid(r.0) && |api.ctors| <= |r.0.ctors| && r.0.ctors[..|api.ctors|] == api.ctors
    ensures t == Component && d.Obj? ==>
      && r.1.CtorRef? && r.1.cid < |r.0.ctors|
      && r.0.ctors[r.1.cid].super == Some(api.ctors[recv].options.base)
      && r.0.ctors[r.1.cid].extendOptions == Some(d.ref)
      && d.ref in r.0.objs && r.0.objs[d.ref].name == NameOrId(api.objs[d.ref], id).name
      && api.ctors[recv].options.base in r.0.objs[d.ref].ctorCache
      && r.0.objs[d.ref].ctorCache[api.ctors[recv].options.base] == r.1.cid
    ensures t == Directive && d.IsFunction() ==>
      && r.1.Obj? && r.1.ref !in api.objs && r.1.ref in r.0.objs
      && r.0.objs[r.1.ref] == PlainObj(None, Some(d), Some(d), map[])
      && r.0.ctors == api.ctors
    ensures !(t == Component && d.Obj?) && !(t == Directive && d.IsFunction()) ==> r == (api, d)
    ensures forall x :: x in api.objs && !(d.Obj? && x == d.ref) ==> x in r.0.objs && r.0.objs[x] == api.objs[x]
  {
    if t == Component && d.Obj? then NormaliseComponent(api, recv, id, d.ref, merge)
    else if t == Directive && d.IsFunction() then
      var r := NormaliseDirective(api, d);
      assert r.0.ctors[..|api.ctors|] == api.ctors;
      r
    else (api, d)
  }

  /** `this.options[type + 's'][id] = definition`: only that key of the
      receiver's registry changes. */
  function Store(api: Api, recv: Cid, t: AssetType, id: string, d: Def): (r: Api)
    requires Valid(api) && recv < |api.ctors|
    ensures Valid(r) && |r.ctors| == |api.ctors| && r.objs == api.objs
    ensures Lookup(r, recv, t, id) == Some(d)
    ensures forall u, k :: u != t || k != id ==> Lookup(r, recv, u, k) == Lookup(api, recv, u, k)
    ensures forall c :: 0 <= c < |api.ctors| && c != recv ==> r.ctors[c] == api.ctors[c]
    ensures r.ctors[recv].super == api.ctors[recv].super
    ensures r.ctors[recv].statics == api.ctors[recv].statics
    ensures r.ctors[recv].options.name == api.ctors[recv].options.name
  {
    var ctor := api.ctors[recv];
    var r := api.(ctors := api.ctors[recv := ctor.(options := ctor.options.WithAsset(t, id, d))]);
    assert Valid(r) by {
      forall x | x in r.objs ensures CacheValid(r, x) {
        assert CacheValid(api, x);
      }
    }
    r
  }

  /** `Vue[type](id, definition)` with a definition: normalise it, store
      the result under `id` in the receiver's registry of that type and
      return it. The heap and the constructors are the normalised ones, with
      only the receiver's registry changed on top. */
  function Define(api: Api, recv: Cid, t: AssetType, id: string, d: Def, merge: Merge): (r: (Api, Def))
    requires CanRegister(api, recv, Some(d))
    ensures Valid(r.0) && |api.ctors| <= |r.0.ctors| && recv < |r.0.ctors|
    ensures var n := Normalise(api, recv, t, id, d, merge);
      && r.1 == n.1 && Lookup(r.0, recv, t, id) == Some(r.1)
      && r.0.objs == n.0.objs && |r.0.ctors| == |n.0.ctors|
      && forall c :: 0 <= c < |n.0.ctors| && c != recv ==> r.0.ctors[c] == n.0.ctors[c]
    ensures t == Component && d.Obj? ==> r.1.CtorRef? && r.1.cid < |r.0.ctors|
    ensures forall x :: x in api.objs && !(d.Obj? && x == d.ref) ==> x in r.0.objs && r.0.objs[x] == api.objs[x]
    ensures forall u, k :: u != t || k != id ==> Lookup(r.0, recv, u, k) == Lookup(api, recv, u, k)
    ensures forall c :: 0 <= c < |api.ctors| && c != recv ==> r.0.ctors[c] == api.ctors[c]
    ensures r.0.ctors[recv].super == api.ctors[recv].super
    ensures r.0.ctors[recv].statics == api.ctors[recv].statics
    ensures r.0.ctors[recv].options.name == api.ctors[recv].options.name
  {
    var (api1, d') := Normalise(api, recv, t, id, d, merge);
    assert forall c :: 0 <= c < |api.ctors| ==> api1.ctors[c] == api.ctors[c] by {
      assert forall c :: 0 <= c < |api.ctors| ==> api1.ctors[..|api.ctors|][c] == api1.ctors[c];
    }
    (Store(api1, recv, t, id, d'), d')
  }

  /** `Vue[type](id, definition)`. Without a definition it returns what
      is stored and changes nothing. With one, it stores the normalised
      definition under `id` in the receiver's registry of that type, returns
      that same value, and leaves every other key, every other registry,
      the rest of the receiver and every other constructor as they were. */
  function Register(api: Api, recv: Cid, t: AssetType, id: string, def: Option<Def>, merge: Merge): (r: (Api, Option<Def>))
    requires CanRegister(api, recv, def)
    ensures Valid(r.0) && |api.ctors| <= |r.0.ctors| && recv < |r.0.ctors|
    ensures def.None? ==> r == (api, Lookup(api, recv, t, id))
    ensures def.Some? ==> r.1 == Some(Normalise(api, recv, t, id, def.value, merge).1) && Lookup(r.0, recv, t, id) == r.1
    ensures def.Some? ==>
      var n := Normalise(api, recv, t, id, def.value, merge);
      && r.0.objs == n.0.objs && |r.0.ctors| == |n.0.ctors|
      && forall c :: 0 <= c < |n.0.ctors| && c != recv ==> r.0.ctors[c] == n.0.ctors[c]
    ensures def.Some? && t == Component && def.value.Obj? ==> r.1.Some? && r.1.value.CtorRef? && r.1.value.cid < |r.0.ctors|
    ensures forall x :: x in api.objs && !(def.Some? && def.value.Obj? && x == def.value.ref) ==>
      x in r.0.objs && r.0.objs[x] == api.objs[x]
    ensures forall u, k :: u != t || k != id ==> Lookup(r.0, recv, u, k) == Lookup(api, recv, u, k)
    ensures forall c :: 0 <= c < |api.ctors| && c != recv ==> r.0.ctors[c] == api.ctors[c]
    ensures r.0.ctors[recv].super == api.ctors[recv].super
    ensures r.0.ctors[recv].statics == api.ctors[recv].statics
    ensures r.0.ctors[recv].options.name == api.ctors[recv].options.name
  {
    if def.None? then (api, Lookup(api, recv, t, id))
    else
      var (api1, d) := Define(api, recv, t, id, def.value, merge);
      (api1, Some(d))
  }

  /** Filters are stored exactly as given, and looked up again unchanged. */
  lemma FilterStoredAsGiven(api: Api, recv: Cid, id: string, d: Def, merge: Merge)
    requires CanRegister(api, recv, Some(d))
    ensures
      var r := Register(api, recv, Filter, id, Some(d), merge);
      r.1 == Some(d) && Register(r.0, recv, Filter, id, None, merge).1 == Some(d)
  {
  }

  /** A function passed as a directive is stored as `{ bind: f, update: f }`. */
  lemma DirectiveFunctionNormalised(api: Api, recv: Cid, id: string, f: Def, merge: Merge)
    requires CanRegister(api, recv, Some(f)) && f.IsFunction()
    ensures
      var r := Register(api, recv, Directive, id, Some(f), merge);
      && r.1.Some? && r.1.value.Obj? && r.1.value.ref in r.0.objs
      && r.0.objs[r.1.value.ref].bind == Some(f)
      && r.0.objs[r.1.value.ref].update == Some(f)
  {
  }

  /** Registering one plain object as a component twice on the same
      receiver yields one constructor: the first registration caches the
      constructor on the object, so the second hits the cache. The first
      registration also names the object, and a non-empty first id sticks. */
  lemma ComponentObjectRegisteredTwice(api: Api, recv: Cid, id1: string, id2: string, ref: Ref, merge: Merge)
    requires CanRegister(api, recv, Some(Obj(ref)))
    ensures
      var first := Register(api, recv, Component, id1, Some(Obj(ref)), merge);
      var second := Register(first.0, recv, Component, id2, Some(Obj(ref)), merge);
      && first.1 == second.1
      && ref in second.0.objs
      && (id1 != "" ==> second.0.objs[ref].name == NameOrId(api.objs[ref], id1).name)
  {
    var base := api.ctors[recv].options.base;
    var n1 := Normalise(api, recv, Component, id1, Obj(ref), merge);
    var first := Register(api, recv, Component, id1, Some(Obj(ref)), merge);
    assert first.0.objs == n1.0.objs;
    assert first.0.ctors[recv].options.base == base;
    var named := first.0.(objs := first.0.objs[ref := NameOrId(first.0.objs[ref], id2)]);
    assert Cached(named, base, Some(ref));
    var n2 := Normalise(first.0, recv, Component, id2, Obj(ref), merge);
    assert n2.1 == n1.1;
  }
}

=== FILE: base.dfy ===
/** Small shared vocabulary: an optional value standing for JavaScript's
    `undefined`/`null`, and occurrence counting on sequences. */
module Base {

  /** `None` plays the part of an absent (`undefined` or `null`) value. */
  datatype Option<+T> = None | Some(value: T) {

    /** The wrapped value, or `default` when absent. */
    function GetOr(default: T): T {
      match this
      case Some(v) => v
      case None => default
    }
  }

  /** Number of occurrences of `x` in `s`. */
  function Count<T(==)>(s: seq<T>, x: T): nat
  {
    if s == [] then 0
    else Count(s[..|s| - 1], x) + (if s[|s| - 1] == x then 1 else 0)
  }

  /** `x` occurs exactly as often as `multiset` says, so counting agrees
      with membership. */
  lemma {:induction false} CountIsMultiplicity<T>(s: seq<T>, x: T)
    ensures Count(s, x) == multiset(s)[x]
    ensures Count(s, x) > 0 <==> x in s
  {
    if s != [] {
      var init := s[..|s| - 1];
      CountIsMultiplicity(init, x);
      assert s == init + [s[|s| - 1]];
    }
  }

  /** `Array.prototype.indexOf` under `===`: the first position holding
      `x`, or -1 when there is none. */
  function IndexOf<T(==)>(s: seq<T>, x: T): (i: int)
    ensures -1 <= i < |s|
    ensures i == -1 <==> x !in s
    ensures 0 <= i ==> s[i] == x && x !in s[..i]
  {
    if s == [] then -1
    else if s[0] == x then 0
    else
      var j := IndexOf(s[1..], x);
      if j == -1 then -1
      else
        assert s[..j + 1] == [s[0]] + s[1..][..j];
        j + 1
  }

  /** Membership split at the last element. */
  lemma InInitOrLast<T>(s: seq<T>, x: T)
    requires s != []
    ensures x in s <==> x in s[..|s| - 1] || x == s[|s| - 1]
  {
    assert s == s[..|s| - 1] + [s[|s| - 1]];
  }

  /** No element occurs twice. */
  predicate NoDuplicates<T(==)>(s: seq<T>)
  {
    forall i, j :: 0 <= i < j < |s| ==> s[i] != s[j]
  }

  /** In a sequence without duplicates every member occurs exactly once. */
  lemma {:induction false} CountNoDuplicates<T>(s: seq<T>, x: T)
    requires NoDuplicates(s)
    ensures Count(s, x) == if x in s then 1 else 0
  {
    if s != [] {
      var init := s[..|s| - 1];
      assert NoDuplicates(init);
      CountNoDuplicates(init, x);
      assert s == init + [s[|s| - 1]];
      if s[|s| - 1] == x {
        assert x !in init by {
          forall i | 0 <= i < |init| ensures init[i] != x {
            assert init[i] == s[i];
          }
        }
      }
    }
  }
}

=== FILE: dep.dfy ===
/** The dependency subject `Dep` and the tracking-target stack
    (src/core/observer/dep.js).

    Watchers are opaque apart from their id: `Watcher.addDep` and
    `Watcher.update` are not part of this model, so `depend` is modelled by
    the `addDep` calls it makes and `notify` by the `update` calls it makes,
    with what each `update` does to this dep's subscriber list given as a
    parameter. */
module Deps {
  import opened Base

  /** A watcher; its identity is its id (watcher ids are unique). */
  datatype Watcher = Watcher(id: nat)

  /** A dependency subject: its id and its subscriber list `subs`. */
  datatype Dep = Dep(id: nat, subs: seq<Watcher>)

  /** `new Dep()`: take the module counter `uid` as id, then advance it.
      Returns the dep and the next counter value. */
  function NewDep(uid: nat): (r: (Dep, nat))
    ensures r.0.subs == []
    ensures uid == r.0.id < r.1
  {
    (Dep(uid, []), uid + 1)
  }

  /** Create `n` deps one after the other: ids are consecutive from `uid`,
      so they are unique and strictly increasing in creation order. */
  method CreateDeps(uid: nat, n: nat) returns (deps: seq<Dep>, next: nat)
    ensures |deps| == n
    ensures next == uid + n
    ensures forall i, j :: 0 <= i < j < n ==> deps[i].id < deps[j].id
    ensures forall i :: 0 <= i < n ==> uid <= deps[i].id < next && deps[i].subs == []
  {
    deps := [];
    next := uid;
    while |deps| < n
      invariant |deps| <= n
      invariant next == uid + |deps|
      invariant forall i :: 0 <= i < |deps| ==> deps[i] == Dep(uid + i, [])
    {
      var created := NewDep(next);
      deps := deps + [created.0];
      next := created.1;
    }
  }

  /** `addSub`: append the watcher, without deduplication. */
  function AddSub(d: Dep, w: Watcher): (r: Dep)
    ensures r.id == d.id
    ensures |r.subs| == |d.subs| + 1 && r.subs[..|d.subs|] == d.subs
    ensures r.subs[|d.subs|] == w
  {
    var subs := d.subs + [w];
    assert subs[..|d.subs|] == d.subs;
    Dep(d.id, subs)
  }

  /** `addSub` does not deduplicate: a watcher already subscribed is
      subscribed once more. */
  lemma AddSubCountsOnceMore(d: Dep, w: Watcher)
    ensures Count(AddSub(d, w).subs, w) == Count(d.subs, w) + 1
  {
    assert AddSub(d, w).subs[..|d.subs|] == d.subs;
  }

  /** `removeSub`, through the `remove` helper: delete the first occurrence
      of the watcher, if any, keeping the others in order. */
  function RemoveSub(d: Dep, w: Watcher): (r: Dep)
    ensures r.id == d.id
    ensures w !in d.subs ==> r.subs == d.subs
    ensures w in d.subs ==>
      exists i :: 0 <= i < |d.subs| && d.subs[i] == w && w !in d.subs[..i]
        && r.subs == d.subs[..i] + d.subs[i + 1..]
  {
    var i := IndexOf(d.subs, w);
    if i < 0 then d
    else
      var r := Dep(d.id, d.subs[..i] + d.subs[i + 1..]);
      assert d.subs[i] == w && w !in d.subs[..i] && r.subs == d.subs[..i] + d.subs[i + 1..];
      r
  }

  /** `removeSub` takes away one occurrence of the watcher when there is
      one, and nothing else. */
  lemma RemoveSubTakesOne(d: Dep, w: Watcher)
    ensures multiset(RemoveSub(d, w).subs) == multiset(d.subs) - multiset{w}
  {
    var i := IndexOf(d.subs, w);
    if i >= 0 {
      assert d.subs == d.subs[..i] + [w] + d.subs[i + 1..];
    }
  }

  lemma {:induction false} IndexOfAppendAbsent<T>(s: seq<T>, t: seq<T>, x: T)
    requires x !in s
    ensures IndexOf(s + t, x) == (if x in t then |s| + IndexOf(t, x) else -1)
  {
    if s != [] {
      assert (s + t)[1..] == s[1..] + t;
      IndexOfAppendAbsent(s[1..], t, x);
    } else {
      assert s + t == t;
    }
  }

  lemma {:induction false} IndexOfAppendPresent<T>(s: seq<T>, t: seq<T>, x: T)
    requires x in s
    ensures IndexOf(s + t, x) == IndexOf(s, x)
  {
    if s[0] != x {
      assert (s + t)[1..] == s[1..] + t;
      IndexOfAppendPresent(s[1..], t, x);
    }
  }

  /** Subscribing a new watcher and unsubscribing it again restores the dep. */
  lemma AddThenRemove(d: Dep, w: Watcher)
    requires w !in d.subs
    ensures RemoveSub(AddSub(d, w), w) == d
  {
    var a := AddSub(d, w);
    assert a.subs == d.subs + [w];
    IndexOfAppendAbsent(d.subs, [w], w);
    assert a.subs[..|d.subs|] == d.subs;
  }

  /** Because `addSub` does not deduplicate and `removeSub` takes the first
      occurrence, re-adding a subscribed watcher and removing it again
      leaves the re-added copy at the end. */
  lemma {:induction false} AddDuplicateThenRemove(d: Dep, w: Watcher)
    requires w in d.subs
    ensures RemoveSub(AddSub(d, w), w).subs == RemoveSub(d, w).subs + [w]
  {
    var s := d.subs;
    var i := IndexOf(s, w);
    assert AddSub(d, w) == Dep(d.id, s + [w]);
    IndexOfAppendPresent(s, [w], w);
    RemoveSubAtFirst(Dep(d.id, s + [w]), w);
    RemoveSubAtFirst(d, w);
    DropAppended(s, i, w);
  }

  /** Dropping position `i` commutes with appending behind it. */
  lemma DropAppended(s: seq<Watcher>, i: nat, x: Watcher)
    requires i < |s|
    ensures (s + [x])[..i] + (s + [x])[i + 1..] == s[..i] + s[i + 1..] + [x]
  {
    assert (s + [x])[..i] == s[..i];
    assert (s + [x])[i + 1..] == s[i + 1..] + [x];
  }

  lemma RemoveSubAtFirst(d: Dep, w: Watcher)
    requires w in d.subs
    ensures 0 <= IndexOf(d.subs, w)
    ensures RemoveSub(d, w).subs == d.subs[..IndexOf(d.subs, w)] + d.subs[IndexOf(d.subs, w) + 1..]
  {
  }

  /** One `Dep.target.addDep(dep)` call, recorded as the watcher and dep id. */
  datatype AddDep = AddDep(watcher: Watcher, dep: nat)

  /** `depend`: a no-op without a current target, otherwise exactly one
      `addDep` call on the target with this dep. */
  function Depend(target: Option<Watcher>, d: Dep): (calls: seq<AddDep>)
    ensures |calls| == (if target.Some? then 1 else 0)
    ensures forall c :: c in calls ==> target == Some(c.watcher) && c.dep == d.id
  {
    match target
    case Some(w) => [AddDep(w, d.id)]
    case None => []
  }

  /** The build mode `notify` consults. */
  datatype Mode = Mode(production: bool, async: bool)

  /** Only a development build running synchronously sorts on notify (in
      async mode the scheduler sorts instead). */
  predicate SortsOnNotify(m: Mode)
  {
    !m.production && !m.async
  }

  predicate SortedById(s: seq<Watcher>)
  {
    forall i, j :: 0 <= i < j < |s| ==> s[i].id <= s[j].id
  }

  function InsertById(w: Watcher, s: seq<Watcher>): (r: seq<Watcher>)
    requires SortedById(s)
    ensures SortedById(r)
    ensures multiset(r) == multiset(s) + multiset{w}
  {
    if s == [] then [w]
    else if w.id <= s[0].id then [w] + s
    else
      var rest := InsertById(w, s[1..]);
      assert s == [s[0]] + s[1..];
      InsertedBehindHead(w, s, rest);
      [s[0]] + rest
  }

  /** Inserting behind the head of a sorted sequence keeps the head least. */
  lemma InsertedBehindHead(w: Watcher, s: seq<Watcher>, rest: seq<Watcher>)
    requires SortedById(s) && s != [] && s[0].id < w.id
    requires SortedById(rest) && multiset(rest) == multiset(s[1..]) + multiset{w}
    ensures SortedById([s[0]] + rest)
  {
    forall k | 0 <= k < |rest|
      ensures s[0].id <= rest[k].id
    {
      assert rest[k] in multiset(rest);
      if rest[k] != w {
        assert rest[k] in multiset(s[1..]);
        var j :| 0 <= j < |s[1..]| && s[1..][j] == rest[k];
        assert s[j + 1] == rest[k];
      }
    }
  }

  /** `subs.sort((a, b) => a.id - b.id)`: ascending ids, same elements. */
  function SortById(s: seq<Watcher>): (r: seq<Watcher>)
    ensures SortedById(r)
    ensures multiset(r) == multiset(s)
  {
    if s == [] then []
    else
      assert s == [s[0]] + s[1..];
      InsertById(s[0], SortById(s[1..]))
  }

  /** Since a watcher is determined by its id, there is only one ascending
      arrangement of a given subscriber list: the synchronous update order
      does not depend on the order watchers subscribed in. */
  lemma {:induction false} SortedArrangementIsUnique(a: seq<Watcher>, b: seq<Watcher>)
    requires SortedById(a) && SortedById(b)
    requires multiset(a) == multiset(b)
    ensures a == b
    decreases |a|
  {
    assert |a| == |multiset(a)| == |b|;
    if a != [] {
      SameLeast(a, b);
      DropHead(a);
      DropHead(b);
      SortedArrangementIsUnique(a[1..], b[1..]);
      assert a == [a[0]] + a[1..];
      assert b == [b[0]] + b[1..];
    }
  }

  /** Two id-sorted arrangements of the same watchers start alike. */
  lemma SameLeast(a: seq<Watcher>, b: seq<Watcher>)
    requires SortedById(a) && SortedById(b) && multiset(a) == multiset(b) && a != []
    ensures b != [] && a[0] == b[0]
  {
    assert a[0] in multiset(b);
    var j :| 0 <= j < |b| && b[j] == a[0];
    assert b[0] in multiset(a);
    var i :| 0 <= i < |a| && a[i] == b[0];
    assert a[0].id <= a[i].id && b[0].id <= b[j].id;
  }

  lemma DropHead(a: seq<Watcher>)
    requires a != []
    ensures multiset(a[1..]) == multiset(a) - multiset{a[0]}
    ensures SortedById(a) ==> SortedById(a[1..])
  {
    assert a == [a[0]] + a[1..];
  }

  /** A change an `update` call makes to this dep's subscriber list. */
  datatype SubEdit = Subscribe(w: Watcher) | Unsubscribe(w: Watcher)

  function ApplyEdits(d: Dep, edits: seq<SubEdit>): Dep
  {
    if edits == [] then d
    else
      var d' := ApplyEdits(d, edits[..|edits| - 1]);
      match edits[|edits| - 1]
      case Subscribe(w) => AddSub(d', w)
      case Unsubscribe(w) => RemoveSub(d', w)
  }

  lemma {:induction false} ApplyEditsAppend(d: Dep, a: seq<SubEdit>, b: seq<SubEdit>)
    ensures ApplyEdits(d, a + b) == ApplyEdits(ApplyEdits(d, a), b)
    decreases |b|
  {
    if b == [] {
      assert a + b == a;
    } else {
      assert (a + b)[..|a + b| - 1] == a + b[..|b| - 1];
      ApplyEditsAppend(d, a, b[..|b| - 1]);
    }
  }

  /** The edits made by updating `ws` in order. */
  function Edits(ws: seq<Watcher>, update: Watcher -> seq<SubEdit>): seq<SubEdit>
  {
    if ws == [] then [] else Edits(ws[..|ws| - 1], update) + update(ws[|ws| - 1])
  }

  /** Updating one more watcher applies its edits after the earlier ones. */
  lemma EditsAppendOne(d: Dep, ws: seq<Watcher>, x: Watcher, update: Watcher -> seq<SubEdit>)
    ensures ApplyEdits(d, Edits(ws + [x], update)) == ApplyEdits(ApplyEdits(d, Edits(ws, update)), update(x))
  {
    assert (ws + [x])[..|ws|] == ws;
    ApplyEditsAppend(d, Edits(ws, update), update(x));
  }

  /** The list `notify` iterates over: a copy of `subs`, sorted by id in
      synchronous development mode. */
  function Snapshot(d: Dep, mode: Mode): (s: seq<Watcher>)
    ensures multiset(s) == multiset(d.subs)
    ensures SortsOnNotify(mode) ==> SortedById(s)
    ensures !SortsOnNotify(mode) ==> s == d.subs
  {
    if SortsOnNotify(mode) then SortById(d.subs) else d.subs
  }

  /** How the subscriber list can move under a run of edits: each
      `Subscribe(w)` adds one occurrence of `w`, and each `Unsubscribe(w)`
      takes away at most one; edits for other watchers leave `w` alone. */
  lemma {:induction false} EditsMoveCounts(d: Dep, edits: seq<SubEdit>, w: Watcher)
    ensures multiset(ApplyEdits(d, edits).subs)[w] <= multiset(d.subs)[w] + Count(edits, Subscribe(w))
    ensures multiset(d.subs)[w] + Count(edits, Subscribe(w)) - Count(edits, Unsubscribe(w))
         <= multiset(ApplyEdits(d, edits).subs)[w]
  {
    if edits != [] {
      var init := edits[..|edits| - 1];
      var d' := ApplyEdits(d, init);
      EditsMoveCounts(d, init, w);
      var last := edits[|edits| - 1];
      assert Count(edits, Subscribe(w)) == Count(init, Subscribe(w)) + (if last == Subscribe(w) then 1 else 0);
      assert Count(edits, Unsubscribe(w)) == Count(init, Unsubscribe(w)) + (if last == Unsubscribe(w) then 1 else 0);
      EditMovesCount(d', last, w);
    }
  }

  /** One edit moves the count of `w` by one up for `Subscribe(w)`, by at
      most one down for `Unsubscribe(w)`, and not at all otherwise. */
  lemma EditMovesCount(d: Dep, edit: SubEdit, w: Watcher)
    ensures var after := multiset(ApplyEdits(d, [edit]).subs)[w];
      match edit
      case Subscribe(x) => after == multiset(d.subs)[w] + (if x == w then 1 else 0)
      case Unsubscribe(x) =>
        multiset(d.subs)[w] as int - (if x == w then 1 else 0) <= after <= multiset(d.subs)[w]
  {
    assert [edit][..0] == [];
    match edit
    case Subscribe(x) =>
      assert AddSub(d, x).subs == d.subs + [x];
    case Unsubscribe(x) =>
      RemoveSubTakesOne(d, x);
  }

  /** The `update` loop of `notify` over a snapshot `subs`: it updates
      exactly the snapshot's watchers, in order, and the edits those
      updates make to the live list take effect one after the other. */
  method Deliver(d: Dep, subs: seq<Watcher>, update: Watcher -> seq<SubEdit>) returns (d': Dep, called: seq<Watcher>)
    ensures called == subs
    ensures d' == ApplyEdits(d, Edits(called, update))
  {
    d' := d;
    called := [];
    var i := 0;
    while i < |subs|
      invariant 0 <= i <= |subs|
      invariant called == subs[..i]
      invariant d' == ApplyEdits(d, Edits(called, update))
    {
      EditsAppendOne(d, called, subs[i], update);
      d' := ApplyEdits(d', update(subs[i]));
      called := called + [subs[i]];
      assert called == subs[..i + 1];
      i := i + 1;
    }
    assert subs[..i] == subs;
  }

  /** `notify`: snapshot `subs`, sort the snapshot in synchronous
      development mode, then call `update` once per snapshot entry. The
      watchers updated are fixed by the snapshot: whatever the updates do to
      the live list, nobody added during delivery is updated and nobody
      removed during delivery is skipped. */
  method Notify(d: Dep, mode: Mode, update: Watcher -> seq<SubEdit>)
    returns (d': Dep, updated: seq<Watcher>)
    ensures multiset(updated) == multiset(d.subs)
    ensures SortsOnNotify(mode) ==> SortedById(updated)
    ensures !SortsOnNotify(mode) ==> updated == d.subs
    ensures d' == ApplyEdits(d, Edits(updated, update))
  {
    var snapshot := Snapshot(d, mode);
    d', updated := Deliver(d, snapshot, update);
  }

  /** `Dep.target` and `targetStack`. An entry may be `None`:
      `pushTarget()` with no watcher suspends tracking. */
  datatype Tracking = Tracking(stack: seq<Option<Watcher>>, target: Option<Watcher>)

  /** Module load time: `Dep.target = null`, empty stack. */
  const NoTracking: Tracking := Tracking([], None)

  function Top(stack: seq<Option<Watcher>>): Option<Watcher>
  {
    if stack == [] then None else stack[|stack| - 1]
  }

  /** `Dep.target` is the top of the stack, or absent when it is empty. */
  predicate Valid(t: Tracking)
  {
    t.target == Top(t.stack)
  }

  /** At module load `Dep.target` is the top of the empty stack, so reads
      register with nobody, and nested evaluations from there return to it. */
  lemma TrackingFromLoad(ws: seq<Option<Watcher>>, d: Dep)
    ensures Valid(NoTracking) && Depend(NoTracking.target, d) == []
    ensures PopN(PushAll(NoTracking, ws), |ws|) == NoTracking
  {
    NestedEvaluationRestores(NoTracking, ws);
  }

  /** `pushTarget(w)`: the pushed watcher becomes the current target. */
  function PushTarget(t: Tracking, w: Option<Watcher>): (r: Tracking)
    ensures r.target == w
    ensures |r.stack| == |t.stack| + 1 && r.stack[..|t.stack|] == t.stack
    ensures Valid(r)
  {
    var stack := t.stack + [w];
    assert stack[..|t.stack|] == t.stack;
    Tracking(stack, w)
  }

  /** `popTarget`: drop the top (nothing to drop on an empty stack) and make
      the new top current. */
  function PopTarget(t: Tracking): (r: Tracking)
    ensures t.stack != [] ==> r.stack == t.stack[..|t.stack| - 1]
    ensures t.stack == [] ==> r.stack == []
    ensures Valid(r)
  {
    var stack := if t.stack == [] then [] else t.stack[..|t.stack| - 1];
    Tracking(stack, Top(stack))
  }

  /** A push followed by a pop restores the previous target and stack. */
  lemma PushThenPop(t: Tracking, w: Option<Watcher>)
    requires Valid(t)
    ensures PopTarget(PushTarget(t, w)) == t
  {
  }

  function PushAll(t: Tracking, ws: seq<Option<Watcher>>): Tracking
  {
    if ws == [] then t else PushTarget(PushAll(t, ws[..|ws| - 1]), ws[|ws| - 1])
  }

  function PopN(t: Tracking, n: nat): Tracking
    decreases n
  {
    if n == 0 then t else PopN(PopTarget(t), n - 1)
  }

  /** Nested tracked evaluations: pushing any number of targets and then
      popping as many restores the outer target and stack. */
  lemma {:induction false} NestedEvaluationRestores(t: Tracking, ws: seq<Option<Watcher>>)
    requires Valid(t)
    ensures PopN(PushAll(t, ws), |ws|) == t
    decreases |ws|
  {
    if ws != [] {
      var inner := PushAll(t, ws[..|ws| - 1]);
      assert Valid(inner) by {
        if |ws| > 1 {} else { assert ws[..|ws| - 1] == []; }
      }
      PushThenPop(inner, ws[|ws| - 1]);
      NestedEvaluationRestores(t, ws[..|ws| - 1]);
    }
  }

  /** While a watcher's evaluation is bracketed by push/pop, a reactive read
      registers this dep with exactly that watcher; after the pop, reads
      register with whatever target was current before. */
  lemma DependReachesCurrentWatcher(t: Tracking, w: Watcher, d: Dep)
    requires Valid(t)
    ensures Depend(PushTarget(t, Some(w)).target, d) == [AddDep(w, d.id)]
    ensures Depend(PopTarget(PushTarget(t, Some(w))).target, d) == Depend(t.target, d)
  {
    PushThenPop(t, Some(w));
  }
}

=== FILE: events.dfy ===
/** The instance event registry: `$on`, `$once`, `$off`, `$emit` and
    `createOnceHandler` (src/core/instance/events.js).

    A component instance's `_events` maps an event name to its listener
    list, or to `null` once `$off(event)` has cleared it. Functions are
    values of `Fn`: user functions are opaque, and the two wrappers this
    file creates carry what they capture. What a user function does when
    called is given by a `Behaviour` parameter. */
module Events {
  import opened Base

  /** The `event` argument: a name, or an array of (possibly nested) names. */
  datatype EventSpec = Name(name: string) | Names(items: seq<EventSpec>)

  /** A listener function. `OnceWrapper` is the `on` closure of `$once`
      (its `fn` field is the `on.fn = fn` property); `OnceHandler` is the
      closure returned by `createOnceHandler`. A wrapper's `serial` stands
      for its identity as a fresh closure object. */
  datatype Fn =
    | UserFn(id: nat)
    | OnceWrapper(serial: nat, event: EventSpec, fn: Fn)
    | OnceHandler(serial: nat, event: EventSpec, fn: Fn)

  /** The instance state this file touches: `_events`, `_hasHookEvent`, and
      a counter that hands out wrapper identities. */
  datatype Vm = Vm(events: map<string, Option<seq<Fn>>>, hasHookEvent: bool, serial: nat)

  /** `initEvents` without parent listeners: no events, no hook flag. */
  const Fresh: Vm := Vm(map[], false, 0)

  /** Every wrapper identity inside `f` was handed out before `n`. */
  predicate Below(f: Fn, n: nat)
  {
    match f
    case UserFn(_) => true
    case OnceWrapper(s, _, g) => s < n && Below(g, n)
    case OnceHandler(s, _, g) => s < n && Below(g, n)
  }

  /** Every registered listener was created before the counter's current
      value, so a wrapper created now is distinct from all of them. */
  ghost predicate WellFormed(vm: Vm)
  {
    forall e, f :: f in Listeners(vm, e) ==> Below(f, vm.serial)
  }

  lemma BelowGrows(f: Fn, n: nat, m: nat)
    ensures Below(f, n) && n <= m ==> Below(f, m)
  {
    match f
    case UserFn(_) =>
    case OnceWrapper(_, _, g) => BelowGrows(g, n, m);
    case OnceHandler(_, _, g) => BelowGrows(g, n, m);
  }

  /** A wrapper given the counter's current value as identity is not
      registered anywhere on a well-formed instance. */
  lemma CurrentIdentityIsFresh(vm: Vm, f: Fn)
    ensures WellFormed(vm) && !f.UserFn? && f.serial == vm.serial ==> forall x :: f !in Listeners(vm, x)
  {
    if WellFormed(vm) && !f.UserFn? && f.serial == vm.serial {
      forall x
        ensures f !in Listeners(vm, x)
      {
        assert f in Listeners(vm, x) ==> Below(f, vm.serial);
      }
    }
  }

  /** A new instance has no listeners, so it is well formed. */
  lemma FreshIsWellFormed()
    ensures WellFormed(Fresh) && forall e :: Listeners(Fresh, e) == []
  {
  }

  /** Handing out an identity keeps the registry well formed. */
  lemma BumpKeepsWellFormed(vm: Vm)
    ensures WellFormed(vm) ==> WellFormed(vm.(serial := vm.serial + 1))
  {
    if !WellFormed(vm) { return; }
    var v := vm.(serial := vm.serial + 1);
    forall e, f | f in Listeners(v, e)
      ensures Below(f, v.serial)
    {
      assert f in Listeners(vm, e);
      BelowGrows(f, vm.serial, vm.serial + 1);
    }
  }

  /** `vm._events[e]` is truthy: a listener list exists (possibly empty). */
  predicate Registered(vm: Vm, e: string)
  {
    e in vm.events && vm.events[e].Some?
  }

  /** The listeners of `e`, empty when none are registered. */
  function Listeners(vm: Vm, e: string): seq<Fn>
  {
    if Registered(vm, e) then vm.events[e].value else []
  }

  /** `hookRE.test(e)` with `hookRE = /^hook:/`. */
  predicate IsHookEvent(e: string)
  {
    |e| >= 5 && e[..5] == "hook:"
  }

  /** The names an event argument denotes, in array order. */
  function Flatten(spec: EventSpec): seq<string>
    decreases spec, 1
  {
    match spec
    case Name(e) => [e]
    case Names(items) => FlattenAll(items)
  }

  function FlattenAll(items: seq<EventSpec>): seq<string>
    decreases items, 0
  {
    if items == [] then [] else Flatten(items[0]) + FlattenAll(items[1..])
  }

  /** `$on(e, fn)` for one name: append `fn` to the list of `e`, creating
      the list when absent or cleared; nothing else changes, and the hook
      flag is only ever raised. */
  function OnOne(vm: Vm, e: string, fn: Fn): (r: Vm)
    ensures Registered(r, e) && Listeners(r, e) == Listeners(vm, e) + [fn]
    ensures r.hasHookEvent == (vm.hasHookEvent || IsHookEvent(e))
    ensures r.serial == vm.serial
  {
    vm.(events := vm.events[e := Some(Listeners(vm, e) + [fn])],
        hasHookEvent := vm.hasHookEvent || IsHookEvent(e))
  }

  function OnNames(vm: Vm, names: seq<string>, fn: Fn): Vm
  {
    if names == [] then vm else OnOne(OnNames(vm, names[..|names| - 1], fn), names[|names| - 1], fn)
  }

  /** `$on(event, fn)`: register `fn` under each name, in array order. */
  function On(vm: Vm, spec: EventSpec, fn: Fn): Vm
  {
    OnNames(vm, Flatten(spec), fn)
  }

  /** `n` copies of `fn`. */
  function Repeat(fn: Fn, n: nat): (r: seq<Fn>)
    ensures |r| == n && forall i :: 0 <= i < n ==> r[i] == fn
  {
    seq(n, _ => fn)
  }

  /** `$on` for one name leaves every other name's entry as it was. */
  lemma OnOneFrame(vm: Vm, e: string, fn: Fn, x: string)
    requires x != e
    ensures x in OnOne(vm, e, fn).events <==> x in vm.events
    ensures x in vm.events ==> OnOne(vm, e, fn).events[x] == vm.events[x]
    ensures Listeners(OnOne(vm, e, fn), x) == Listeners(vm, x)
  {
  }

  lemma RepeatOneMore(fn: Fn, n: nat)
    ensures Repeat(fn, n + 1) == Repeat(fn, n) + [fn]
  {
  }

  /** `$on` with several names appends `fn` to the list of `e` once per
      occurrence of `e` among them, and registers every name it is given. */
  lemma {:induction false} OnAppendsPerOccurrence(vm: Vm, names: seq<string>, fn: Fn, e: string)
    ensures Listeners(OnNames(vm, names, fn), e) == Listeners(vm, e) + Repeat(fn, Count(names, e))
    ensures e in names ==> Registered(OnNames(vm, names, fn), e)
  {
    if names != [] {
      var init := names[..|names| - 1];
      var last := names[|names| - 1];
      var w := OnNames(vm, init, fn);
      assert OnNames(vm, names, fn) == OnOne(w, last, fn);
      OnAppendsPerOccurrence(vm, init, fn, e);
      InInitOrLast(names, e);
      if last == e {
        RepeatOneMore(fn, Count(init, e));
      } else {
        OnOneFrame(w, last, fn, e);
      }
    }
  }

  /** `$on` leaves every name it is not given as it was. */
  lemma {:induction false} OnLeavesOtherNames(vm: Vm, names: seq<string>, fn: Fn, e: string)
    requires e !in names
    ensures e in OnNames(vm, names, fn).events <==> e in vm.events
    ensures e in vm.events ==> OnNames(vm, names, fn).events[e] == vm.events[e]
  {
    if names != [] {
      var init := names[..|names| - 1];
      var last := names[|names| - 1];
      InInitOrLast(names, e);
      OnLeavesOtherNames(vm, init, fn, e);
      OnOneFrame(OnNames(vm, init, fn), last, fn, e);
    }
  }

  /** `$on` raises the hook flag exactly when one of its names starts with
      `hook:`, never lowers it, and allocates nothing. */
  lemma {:induction false} OnRaisesHookFlag(vm: Vm, names: seq<string>, fn: Fn)
    ensures OnNames(vm, names, fn).hasHookEvent
        == (vm.hasHookEvent || exists i :: 0 <= i < |names| && IsHookEvent(names[i]))
    ensures OnNames(vm, names, fn).serial == vm.serial
  {
    if names != [] {
      var init := names[..|names| - 1];
      var last := names[|names| - 1];
      OnRaisesHookFlag(vm, init, fn);
      assert (exists i :: 0 <= i < |names| && IsHookEvent(names[i]))
          <==> (exists i :: 0 <= i < |init| && IsHookEvent(init[i])) || IsHookEvent(last) by {
        if exists i :: 0 <= i < |names| && IsHookEvent(names[i]) {
          var i :| 0 <= i < |names| && IsHookEvent(names[i]);
          if i < |init| { assert init[i] == names[i]; }
        }
        if exists i :: 0 <= i < |init| && IsHookEvent(init[i]) {
          var i :| 0 <= i < |init| && IsHookEvent(init[i]);
          assert names[i] == init[i];
        }
      }
    }
  }

  /** `$once(event, fn)`: register a fresh `on` wrapper whose `fn` is `fn`. */
  function Once(vm: Vm, spec: EventSpec, fn: Fn): Vm
  {
    On(vm.(serial := vm.serial + 1), spec, OnceWrapper(vm.serial, spec, fn))
  }

  /** `cb === fn || cb.fn === fn`: a listener matches the function itself,
      and a `$once` wrapper also matches the function it wraps. */
  predicate Matches(cb: Fn, fn: Fn)
  {
    cb == fn || (cb.OnceWrapper? && cb.fn == fn)
  }

  /** The `while (i--)` search: the last position whose listener matches,
      or -1. */
  function LastMatch(cbs: seq<Fn>, fn: Fn): (i: int)
    ensures -1 <= i < |cbs|
    ensures 0 <= i ==> Matches(cbs[i], fn)
    ensures forall j :: i < j < |cbs| ==> !Matches(cbs[j], fn)
  {
    if cbs == [] then -1
    else if Matches(cbs[|cbs| - 1], fn) then |cbs| - 1
    else LastMatch(cbs[..|cbs| - 1], fn)
  }

  /** `$off(e)` and `$off(e, fn)` for one name. Unregistered (absent or
      cleared): nothing changes. No `fn`: the entry is set to `null`.
      Otherwise at most one listener goes, the last that matches, and the
      others keep their order. */
  function OffOne(vm: Vm, e: string, fn: Option<Fn>): (r: Vm)
    ensures !Registered(vm, e) ==> r == vm
    ensures Registered(vm, e) && fn.None? ==> e in r.events && r.events[e] == None
    ensures Registered(vm, e) && fn.Some? ==>
      var cbs := Listeners(vm, e);
      && Registered(r, e)
      && ((forall j :: 0 <= j < |cbs| ==> !Matches(cbs[j], fn.value)) ==> Listeners(r, e) == cbs)
      && ((exists j :: 0 <= j < |cbs| && Matches(cbs[j], fn.value)) ==>
            exists i :: 0 <= i < |cbs| && Matches(cbs[i], fn.value)
              && (forall j :: i < j < |cbs| ==> !Matches(cbs[j], fn.value))
              && Listeners(r, e) == cbs[..i] + cbs[i + 1..])
    ensures r.events - {e} == vm.events - {e}
    ensures r.hasHookEvent == vm.hasHookEvent && r.serial == vm.serial
  {
    if !Registered(vm, e) then vm
    else if fn.None? then vm.(events := vm.events[e := None])
    else
      var cbs := Listeners(vm, e);
      var i := LastMatch(cbs, fn.value);
      if i < 0 then vm
      else vm.(events := vm.events[e := Some(cbs[..i] + cbs[i + 1..])])
  }

  function OffNames(vm: Vm, names: seq<string>, fn: Option<Fn>): Vm
  {
    if names == [] then vm else OffOne(OffNames(vm, names[..|names| - 1], fn), names[|names| - 1], fn)
  }

  /** The arguments of `$off`: none at all, or an event and optional `fn`. */
  datatype OffArgs = OffAll | OffSome(spec: EventSpec, fn: Option<Fn>)

  /** `$off(...)`. With no arguments every event is dropped; an array of
      names is handled name by name, and names not given are untouched.
      Without `fn`, every given name ends with no listeners. The hook flag
      is never lowered and nothing is created. */
  function Off(vm: Vm, args: OffArgs): (r: Vm)
    ensures args.OffAll? ==> r.events == map[]
    ensures r.hasHookEvent == vm.hasHookEvent && r.serial == vm.serial
    ensures args.OffSome? ==> forall x :: x !in Flatten(args.spec) ==>
      && (x in r.events <==> x in vm.events)
      && (x in vm.events ==> r.events[x] == vm.events[x])
    ensures args.OffSome? && args.fn.None? ==> forall x :: x in Flatten(args.spec) ==> !Registered(r, x)
  {
    match args
    case OffAll => vm.(events := map[])
    case OffSome(spec, fn) =>
      var names := Flatten(spec);
      OffNamesKeepsCounters(vm, names, fn);
      assert forall x :: x !in names ==>
        && (x in OffNames(vm, names, fn).events <==> x in vm.events)
        && (x in vm.events ==> OffNames(vm, names, fn).events[x] == vm.events[x]) by {
        forall x | x !in names
          ensures && (x in OffNames(vm, names, fn).events <==> x in vm.events)
                  && (x in vm.events ==> OffNames(vm, names, fn).events[x] == vm.events[x])
        {
          OffLeavesOtherNames(vm, names, fn, x);
        }
      }
      assert fn.None? ==> forall x :: x in names ==> !Registered(OffNames(vm, names, fn), x) by {
        if fn.None? {
          forall x | x in names
            ensures !Registered(OffNames(vm, names, fn), x)
          {
            OffWithoutFnClears(vm, names, x);
          }
        }
      }
      OffNames(vm, names, fn)
  }

  /** `$off` for one name leaves every other name's entry as it was. */
  lemma OffOneFrame(vm: Vm, e: string, fn: Option<Fn>, x: string)
    requires x != e
    ensures x in OffOne(vm, e, fn).events <==> x in vm.events
    ensures x in vm.events ==> OffOne(vm, e, fn).events[x] == vm.events[x]
    ensures Listeners(OffOne(vm, e, fn), x) == Listeners(vm, x)
  {
    var r := OffOne(vm, e, fn);
    assert x in r.events <==> x in r.events - {e};
    assert x in vm.events <==> x in vm.events - {e};
    if x in vm.events {
      assert (r.events - {e})[x] == (vm.events - {e})[x];
    }
  }

  /** `$off` with an array of names handles them one after the other, in
      array order: the first part of the array, then the rest. */
  lemma {:induction false} OffNamesAppend(vm: Vm, a: seq<string>, b: seq<string>, fn: Option<Fn>)
    ensures OffNames(vm, a + b, fn) == OffNames(OffNames(vm, a, fn), b, fn)
    decreases |b|
  {
    if b == [] {
      assert a + b == a;
    } else {
      assert (a + b)[..|a + b| - 1] == a + b[..|b| - 1];
      OffNamesAppend(vm, a, b[..|b| - 1], fn);
    }
  }

  /** The array branch of `$off`: calling `$off(event[i], fn)` for each
      item in turn, an item itself possibly an array. */
  lemma OffArrayItemByItem(vm: Vm, items: seq<EventSpec>, fn: Option<Fn>)
    requires items != []
    ensures Off(vm, OffSome(Names(items), fn))
         == Off(Off(vm, OffSome(items[0], fn)), OffSome(Names(items[1..]), fn))
  {
    assert Flatten(Names(items)) == Flatten(items[0]) + Flatten(Names(items[1..]));
    OffNamesAppend(vm, Flatten(items[0]), Flatten(Names(items[1..])), fn);
  }

  /** `$off` with an array of names leaves every name it is not given as it
      was. */
  lemma {:induction false} OffLeavesOtherNames(vm: Vm, names: seq<string>, fn: Option<Fn>, e: string)
    requires e !in names
    ensures e in OffNames(vm, names, fn).events <==> e in vm.events
    ensures e in vm.events ==> OffNames(vm, names, fn).events[e] == vm.events[e]
  {
    if names != [] {
      var init := names[..|names| - 1];
      InInitOrLast(names, e);
      OffLeavesOtherNames(vm, init, fn, e);
      OffOneFrame(OffNames(vm, init, fn), names[|names| - 1], fn, e);
    }
  }

  /** `$off(names)` without `fn` clears every listed name: each leaves with
      no listeners, and one that had a list is set to `null`. */
  lemma {:induction false} OffWithoutFnClears(vm: Vm, names: seq<string>, e: string)
    requires e in names
    ensures !Registered(OffNames(vm, names, None), e)
    ensures Registered(vm, e) ==>
      e in OffNames(vm, names, None).events && OffNames(vm, names, None).events[e] == None
  {
    var init := names[..|names| - 1];
    var last := names[|names| - 1];
    var w := OffNames(vm, init, None);
    InInitOrLast(names, e);
    if e == last {
      if e in init {
        OffWithoutFnClears(vm, init, e);
      } else {
        OffLeavesOtherNames(vm, init, None, e);
      }
    } else {
      OffWithoutFnClears(vm, init, e);
      OffOneFrame(w, last, None, e);
    }
  }

  lemma {:induction false} OffNamesKeepsCounters(vm: Vm, names: seq<string>, fn: Option<Fn>)
    ensures OffNames(vm, names, fn).hasHookEvent == vm.hasHookEvent
    ensures OffNames(vm, names, fn).serial == vm.serial
  {
    if names != [] {
      OffNamesKeepsCounters(vm, names[..|names| - 1], fn);
    }
  }

  /** With a single name, `$on` and `$off` act on that name alone. */
  lemma SingleName(vm: Vm, e: string, fn: Fn, off: Option<Fn>)
    ensures On(vm, Name(e), fn) == OnOne(vm, e, fn)
    ensures Off(vm, OffSome(Name(e), off)) == OffOne(vm, e, off)
  {
    assert Flatten(Name(e)) == [e];
    assert [e][..0] == [];
    assert OnNames(vm, [e], fn) == OnOne(OnNames(vm, [], fn), e, fn);
    assert OffNames(vm, [e], off) == OffOne(OffNames(vm, [], off), e, off);
  }

  /** Removing the listener just appended to a registered list restores
      the registry, when that listener matches `fn`. */
  lemma RemoveAppended(vm: Vm, e: string, cb: Fn, fn: Fn)
    requires Matches(cb, fn)
    ensures Listeners(OffOne(OnOne(vm, e, cb), e, Some(fn)), e) == Listeners(vm, e)
    ensures Registered(vm, e) ==> OffOne(OnOne(vm, e, cb), e, Some(fn)).events == vm.events
  {
    var w := OnOne(vm, e, cb);
    var cbs := Listeners(w, e);
    assert LastMatch(cbs, fn) == |cbs| - 1;
    assert cbs[..|cbs| - 1] + cbs[|cbs|..] == Listeners(vm, e);
    assert OffOne(w, e, Some(fn)).events == vm.events[e := Some(Listeners(vm, e))];
  }

  /** Registering `fn` and then removing `fn` from a registered event
      restores the registry. */
  lemma OnThenOff(vm: Vm, e: string, fn: Fn)
    requires Registered(vm, e)
    ensures Off(On(vm, Name(e), fn), OffSome(Name(e), Some(fn))).events == vm.events
  {
    SingleName(vm, e, fn, Some(fn));
    SingleName(OnOne(vm, e, fn), e, fn, Some(fn));
    RemoveAppended(vm, e, fn, fn);
  }

  /** Because the `$once` wrapper carries `fn`, `$off(e, fn)` removes it
      before it ever fires, restoring the registry. */
  lemma OnceThenOff(vm: Vm, e: string, fn: Fn)
    requires Registered(vm, e)
    ensures Off(Once(vm, Name(e), fn), OffSome(Name(e), Some(fn))).events == vm.events
  {
    var v := vm.(serial := vm.serial + 1);
    var on := OnceWrapper(vm.serial, Name(e), fn);
    assert Once(vm, Name(e), fn) == On(v, Name(e), on);
    SingleName(v, e, on, Some(fn));
    var w := OnOne(v, e, on);
    SingleName(w, e, on, Some(fn));
    RemoveAppended(v, e, on, fn);
    assert v.events == vm.events;
  }

  /** How a call ended: normally (with `null` or another value) or by
      throwing. */
  datatype Outcome = Returned(isNull: bool) | Threw

  /** A registry operation a user function performs when called. */
  datatype Op = OnOp(spec: EventSpec, fn: Fn) | OnceOp(onceSpec: EventSpec, onceFn: Fn) | OffOp(args: OffArgs)

  /** What a user function does when called: its registry operations, in
      order, then how it ends. */
  datatype Reaction = Reaction(ops: seq<Op>, outcome: Outcome)

  type Behaviour = nat -> Reaction

  function ApplyOps(vm: Vm, ops: seq<Op>): Vm
  {
    if ops == [] then vm
    else
      var v := ApplyOps(vm, ops[..|ops| - 1]);
      match ops[|ops| - 1]
      case OnOp(spec, fn) => On(v, spec, fn)
      case OnceOp(spec, fn) => Once(v, spec, fn)
      case OffOp(args) => Off(v, args)
  }

  /** Calling a listener. The `$once` wrapper unregisters itself first and
      then calls `fn`; the `createOnceHandler` closure calls `fn` first and
      unregisters itself afterwards unless `fn` returned exactly `null` (an
      exception from `fn` propagates, so it stays registered then too). */
  function Invoke(vm: Vm, f: Fn, behave: Behaviour): (r: (Vm, Outcome))
    decreases f
  {
    match f
    case UserFn(id) => (ApplyOps(vm, behave(id).ops), behave(id).outcome)
    case OnceWrapper(_, spec, g) =>
      var (v, out) := Invoke(Off(vm, OffSome(spec, Some(f))), g, behave);
      (v, if out.Threw? then Threw else Returned(false))
    case OnceHandler(_, spec, g) =>
      var (v, out) := Invoke(vm, g, behave);
      if out.Threw? then (v, Threw)
      else if out.isNull then (v, Returned(false))
      else (Off(v, OffSome(spec, Some(f))), Returned(false))
  }

  /** `createOnceHandler(event, fn)`: a fresh self-removing closure. It
      registers nothing; on a well-formed instance it is distinct from
      every listener already registered, and the instance stays well
      formed. */
  function CreateOnceHandler(vm: Vm, e: string, fn: Fn): (r: (Vm, Fn))
    ensures r.1.OnceHandler? && r.1.fn == fn && r.1.event == Name(e)
    ensures r.0.events == vm.events && r.0.hasHookEvent == vm.hasHookEvent && r.0.serial == vm.serial + 1
    ensures WellFormed(vm) && Below(fn, vm.serial) ==>
      && WellFormed(r.0) && Below(r.1, r.0.serial)
      && forall x :: r.1 !in Listeners(vm, x)
  {
    BumpKeepsWellFormed(vm);
    BelowGrows(fn, vm.serial, vm.serial + 1);
    CurrentIdentityIsFresh(vm, OnceHandler(vm.serial, Name(e), fn));
    (vm.(serial := vm.serial + 1), OnceHandler(vm.serial, Name(e), fn))
  }

  /** One listener call made by `$emit`; a `Threw` outcome is caught and
      reported by the error handler. */
  datatype Delivery = Delivery(listener: Fn, outcome: Outcome)

  /** Call the listeners `cbs` one after the other. */
  function Deliver(vm: Vm, cbs: seq<Fn>, behave: Behaviour): (r: (Vm, seq<Delivery>))
    ensures |r.1| == |cbs|
    ensures forall i :: 0 <= i < |cbs| ==> r.1[i].listener == cbs[i]
  {
    if cbs == [] then (vm, [])
    else
      var (v, ds) := Deliver(vm, cbs[..|cbs| - 1], behave);
      var (v', out) := Invoke(v, cbs[|cbs| - 1], behave);
      (v', ds + [Delivery(cbs[|cbs| - 1], out)])
  }

  /** `$emit(e)`: call the listeners registered when the emission starts,
      in registration order, each exactly once, whatever they register or
      remove meanwhile and whether or not they throw. (With two or more
      listeners the loop runs over a copy; with one, the cached length
      keeps later additions out just the same.) */
  function Emit(vm: Vm, e: string, behave: Behaviour): (r: (Vm, seq<Delivery>))
    ensures |r.1| == |Listeners(vm, e)|
    ensures forall i :: 0 <= i < |r.1| ==> r.1[i].listener == Listeners(vm, e)[i]
  {
    if Registered(vm, e) then Deliver(vm, Listeners(vm, e), behave) else (vm, [])
  }

  /** The simplest case in full: a `$once` listener on an otherwise empty
      event, around a user function that touches no registry. The first
      emission calls it, reports how `fn` ended and leaves the event with no
      listeners, so the second emission calls nothing. */
  lemma OnceFiresOnceAlone(vm: Vm, e: string, id: nat, behave: Behaviour)
    requires Listeners(vm, e) == []
    requires behave(id).ops == []
    ensures
      var w := Once(vm, Name(e), UserFn(id));
      var first := Emit(w, e, behave);
      && first.1 == [Delivery(OnceWrapper(vm.serial, Name(e), UserFn(id)),
                              if behave(id).outcome.Threw? then Threw else Returned(false))]
      && Listeners(first.0, e) == []
      && Emit(first.0, e, behave).1 == []
  {
    var v := vm.(serial := vm.serial + 1);
    var on := OnceWrapper(vm.serial, Name(e), UserFn(id));
    SingleName(v, e, on, Some(on));
    var w := OnOne(v, e, on);
    assert Listeners(w, e) == [on];
    SingleName(w, e, on, Some(on));
    var off := OffOne(w, e, Some(on));
    assert LastMatch([on], on) == 0;
    assert Listeners(off, e) == [];
    assert Once(vm, Name(e), UserFn(id)) == w;
    WrapperCall(w, vm.serial, Name(e), id, behave);
    DeliverOne(w, on, behave);
    var out := if behave(id).outcome.Threw? then Threw else Returned(false);
    assert Emit(w, e, behave) == (off, [Delivery(on, out)]);
    assert Emit(off, e, behave).1 == [];
  }

  /** Calling a `$once` wrapper around a user function that touches no
      registry: the wrapper unregisters itself and reports how `fn` ended. */
  lemma WrapperCall(vm: Vm, serial: nat, spec: EventSpec, id: nat, behave: Behaviour)
    requires behave(id).ops == []
    ensures
      var on := OnceWrapper(serial, spec, UserFn(id));
      Invoke(vm, on, behave)
        == (Off(vm, OffSome(spec, Some(on))), if behave(id).outcome.Threw? then Threw else Returned(false))
  {
  }

  /** Delivering to a single listener is one call of it. */
  lemma DeliverOne(vm: Vm, cb: Fn, behave: Behaviour)
    ensures Deliver(vm, [cb], behave) == (Invoke(vm, cb, behave).0, [Delivery(cb, Invoke(vm, cb, behave).1)])
  {
    assert [cb][..0] == [];
    assert Deliver(vm, [], behave) == (vm, []);
    var (v', out) := Invoke(vm, cb, behave);
    assert Deliver(vm, [cb], behave) == (v', [] + [Delivery(cb, out)]);
    assert [] + [Delivery(cb, out)] == [Delivery(cb, out)];
  }

  /** The simplest case in full: a `createOnceHandler` closure registered
      last, around a user function that touches no registry, is gone after
      one call, unless `fn` returned exactly `null` or threw, in which case
      it stays. */
  lemma OnceHandlerRegisteredLast(vm: Vm, e: string, id: nat, behave: Behaviour)
    requires behave(id).ops == []
    ensures
      var created := CreateOnceHandler(vm, e, UserFn(id));
      var h := created.1;
      var after := Invoke(On(created.0, Name(e), h), h, behave).0;
      Listeners(after, e)
        == if behave(id).outcome == Returned(false) then Listeners(vm, e) else Listeners(vm, e) + [h]
  {
    var h := OnceHandler(vm.serial, Name(e), UserFn(id));
    var c := vm.(serial := vm.serial + 1);
    assert CreateOnceHandler(vm, e, UserFn(id)) == (c, h);
    SingleName(c, e, h, Some(h));
    var w := OnOne(c, e, h);
    assert Listeners(w, e) == Listeners(vm, e) + [h];
    HandlerCall(w, h, behave);
    if behave(id).outcome == Returned(false) {
      SingleName(w, e, h, Some(h));
      RemoveAppended(c, e, h, h);
    }
  }

  /** Calling a `createOnceHandler` closure around a user function that
      touches no registry: it unregisters itself exactly when `fn` returned
      something other than `null`. */
  lemma HandlerCall(vm: Vm, h: Fn, behave: Behaviour)
    requires h.OnceHandler? && h.fn.UserFn? && behave(h.fn.id).ops == []
    ensures Invoke(vm, h, behave).0
      == if behave(h.fn.id).outcome == Returned(false) then Off(vm, OffSome(h.event, Some(h))) else vm
  {
    assert Invoke(vm, h.fn, behave) == (vm, behave(h.fn.id).outcome);
  }

  /** `$on` keeps the instance well formed when the function it registers
      was created before. */
  lemma OnOneKeepsWellFormed(vm: Vm, e: string, fn: Fn)
    requires WellFormed(vm) && Below(fn, vm.serial)
    ensures WellFormed(OnOne(vm, e, fn))
  {
    var r := OnOne(vm, e, fn);
    forall x, f | f in Listeners(r, x)
      ensures Below(f, r.serial)
    {
      if x == e {
        assert f in Listeners(vm, e) || f == fn;
      } else {
        OnOneFrame(vm, e, fn, x);
      }
    }
  }

  lemma {:induction false} OnNamesKeepsWellFormed(vm: Vm, names: seq<string>, fn: Fn)
    requires WellFormed(vm) && Below(fn, vm.serial)
    ensures WellFormed(OnNames(vm, names, fn)) && OnNames(vm, names, fn).serial == vm.serial
  {
    if names != [] {
      var init := names[..|names| - 1];
      OnNamesKeepsWellFormed(vm, init, fn);
      OnOneKeepsWellFormed(OnNames(vm, init, fn), names[|names| - 1], fn);
    }
  }

  /** `$once` registers a wrapper with a fresh identity and keeps the
      instance well formed. */
  lemma OnceKeepsWellFormed(vm: Vm, spec: EventSpec, fn: Fn)
    requires WellFormed(vm) && Below(fn, vm.serial)
    ensures WellFormed(Once(vm, spec, fn)) && Once(vm, spec, fn).serial == vm.serial + 1
  {
    var v := vm.(serial := vm.serial + 1);
    BumpKeepsWellFormed(vm);
    BelowGrows(fn, vm.serial, v.serial);
    OnNamesKeepsWellFormed(v, Flatten(spec), OnceWrapper(vm.serial, spec, fn));
  }

  /** `$off` for one name only ever removes listeners. */
  lemma OffOneKeepsWellFormed(vm: Vm, e: string, fn: Option<Fn>)
    requires WellFormed(vm)
    ensures WellFormed(OffOne(vm, e, fn))
  {
    var r := OffOne(vm, e, fn);
    forall x, f | f in Listeners(r, x)
      ensures Below(f, r.serial)
    {
      if x != e {
        OffOneFrame(vm, e, fn, x);
      } else if Registered(vm, e) && fn.Some? {
        var cbs := Listeners(vm, e);
        var i := LastMatch(cbs, fn.value);
        if i >= 0 {
          assert Listeners(r, e) == cbs[..i] + cbs[i + 1..];
          assert f in cbs;
        }
      }
    }
  }

  lemma {:induction false} OffNamesKeepsWellFormed(vm: Vm, names: seq<string>, fn: Option<Fn>)
    requires WellFormed(vm)
    ensures WellFormed(OffNames(vm, names, fn))
  {
    if names != [] {
      var init := names[..|names| - 1];
      OffNamesKeepsWellFormed(vm, init, fn);
      OffOneKeepsWellFormed(OffNames(vm, init, fn), names[|names| - 1], fn);
    }
  }

  lemma OffKeepsWellFormed(vm: Vm, args: OffArgs)
    requires WellFormed(vm)
    ensures WellFormed(Off(vm, args))
  {
    if args.OffSome? {
      OffNamesKeepsWellFormed(vm, Flatten(args.spec), args.fn);
    }
  }

  /** An operation registers only functions created before `n`. */
  predicate OpBelow(op: Op, n: nat)
  {
    match op
    case OnOp(_, fn) => Below(fn, n)
    case OnceOp(_, fn) => Below(fn, n)
    case OffOp(_) => true
  }

  /** Every user function registers only functions created before `n`. */
  ghost predicate BehaviourBelow(behave: Behaviour, n: nat)
  {
    forall id, i :: 0 <= i < |behave(id).ops| ==> OpBelow(behave(id).ops[i], n)
  }

  lemma {:induction false} ApplyOpsKeepsWellFormed(vm: Vm, ops: seq<Op>, n: nat)
    requires WellFormed(vm) && n <= vm.serial
    requires forall i :: 0 <= i < |ops| ==> OpBelow(ops[i], n)
    ensures WellFormed(ApplyOps(vm, ops)) && vm.serial <= ApplyOps(vm, ops).serial
  {
    if ops != [] {
      var init := ops[..|ops| - 1];
      assert forall i :: 0 <= i < |init| ==> init[i] == ops[i];
      ApplyOpsKeepsWellFormed(vm, init, n);
      var v := ApplyOps(vm, init);
      var op := ops[|ops| - 1];
      assert OpBelow(op, n);
      match op
      case OnOp(spec, fn) =>
        BelowGrows(fn, n, v.serial);
        OnNamesKeepsWellFormed(v, Flatten(spec), fn);
      case OnceOp(spec, fn) =>
        BelowGrows(fn, n, v.serial);
        OnceKeepsWellFormed(v, spec, fn);
      case OffOp(args) =>
        OffKeepsWellFormed(v, args);
    }
  }

  /** Calling a listener keeps the instance well formed, provided user
      functions only register functions created before. */
  lemma InvokeKeepsWellFormed(vm: Vm, f: Fn, behave: Behaviour, n: nat)
    requires WellFormed(vm) && Below(f, vm.serial) && n <= vm.serial && BehaviourBelow(behave, n)
    ensures WellFormed(Invoke(vm, f, behave).0) && vm.serial <= Invoke(vm, f, behave).0.serial
    decreases f
  {
    match f
    case UserFn(id) =>
      ApplyOpsKeepsWellFormed(vm, behave(id).ops, n);
    case OnceWrapper(_, spec, g) =>
      OffKeepsWellFormed(vm, OffSome(spec, Some(f)));
      InvokeKeepsWellFormed(Off(vm, OffSome(spec, Some(f))), g, behave, n);
    case OnceHandler(_, spec, g) =>
      InvokeKeepsWellFormed(vm, g, behave, n);
      OffKeepsWellFormed(Invoke(vm, g, behave).0, OffSome(spec, Some(f)));
  }

  lemma {:induction false} DeliverKeepsWellFormed(vm: Vm, cbs: seq<Fn>, behave: Behaviour, n: nat)
    requires WellFormed(vm) && n <= vm.serial && BehaviourBelow(behave, n)
    requires forall i :: 0 <= i < |cbs| ==> Below(cbs[i], vm.serial)
    ensures WellFormed(Deliver(vm, cbs, behave).0) && vm.serial <= Deliver(vm, cbs, behave).0.serial
  {
    if cbs != [] {
      var init := cbs[..|cbs| - 1];
      var last := cbs[|cbs| - 1];
      assert forall i :: 0 <= i < |init| ==> init[i] == cbs[i];
      DeliverKeepsWellFormed(vm, init, behave, n);
      var v := Deliver(vm, init, behave).0;
      BelowGrows(last, vm.serial, v.serial);
      InvokeKeepsWellFormed(v, last, behave, n);
    }
  }

  /** An emission keeps the instance well formed, whatever its listeners
      register or remove, so wrappers created afterwards are still fresh. */
  lemma EmitKeepsWellFormed(vm: Vm, e: string, behave: Behaviour, n: nat)
    requires WellFormed(vm) && n <= vm.serial && BehaviourBelow(behave, n)
    ensures WellFormed(Emit(vm, e, behave).0) && vm.serial <= Emit(vm, e, behave).0.serial
  {
    if Registered(vm, e) {
      var cbs := Listeners(vm, e);
      forall i | 0 <= i < |cbs|
        ensures Below(cbs[i], vm.serial)
      {
        assert cbs[i] in Listeners(vm, e);
      }
      DeliverKeepsWellFormed(vm, cbs, behave, n);
    }
  }

  // Self-removal in general. User functions may register and unregister
  // anything, as long as what they register already existed when the
  // wrapper was created (`BehaviourBelow`); they do not call `$emit`
  // themselves. `Step` is what every call keeps true about one wrapper and
  // one event.

  /** At most one listener of `e` matches `on` (for `$off(e, on)`), and it
      can only be `on` itself. */
  predicate SingleMatch(vm: Vm, e: string, on: Fn)
  {
    && multiset(Listeners(vm, e))[on] <= 1
    && forall f :: f in Listeners(vm, e) && Matches(f, on) ==> f == on
  }

  /** From `v` to `v'` the counter does not go back, `on` does not occur
      more often under `e`, and no new listener of `e` matches `on`. */
  predicate Step(v: Vm, v': Vm, e: string, on: Fn)
  {
    && v.serial <= v'.serial
    && multiset(Listeners(v', e))[on] <= multiset(Listeners(v, e))[on]
    && forall f :: f in Listeners(v', e) && Matches(f, on) ==> f in Listeners(v, e)
  }

  lemma StepChains(a: Vm, b: Vm, c: Vm, e: string, on: Fn)
    requires Step(a, b, e, on) && Step(b, c, e, on)
    ensures Step(a, c, e, on)
    ensures SingleMatch(a, e, on) ==> SingleMatch(c, e, on)
    ensures on !in Listeners(a, e) ==> on !in Listeners(c, e)
  {
  }

  /** A function created before a wrapper's identity was handed out is
      neither that wrapper nor a `$once` wrapper around it. */
  lemma BelowNeverMatches(f: Fn, on: Fn, n: nat)
    requires !on.UserFn? && n <= on.serial && Below(f, n)
    ensures !Matches(f, on)
  {
    if f.OnceWrapper? {
      assert Below(f.fn, n);
    }
  }

  lemma OnOneStep(vm: Vm, x: string, fn: Fn, e: string, on: Fn)
    requires !Matches(fn, on)
    ensures Step(vm, OnOne(vm, x, fn), e, on)
  {
    if x != e {
      OnOneFrame(vm, x, fn, e);
    }
  }

  lemma {:induction false} OnNamesStep(vm: Vm, names: seq<string>, fn: Fn, e: string, on: Fn)
    requires !Matches(fn, on)
    ensures Step(vm, OnNames(vm, names, fn), e, on)
  {
    if names != [] {
      var init := names[..|names| - 1];
      OnNamesStep(vm, init, fn, e, on);
      OnOneStep(OnNames(vm, init, fn), names[|names| - 1], fn, e, on);
      StepChains(vm, OnNames(vm, init, fn), OnNames(vm, names, fn), e, on);
    }
  }

  /** `$once(spec, fn)` registers a wrapper that neither is `on` (its
      identity is newer) nor wraps it (when `fn` is not `on`). */
  lemma OnceStep(vm: Vm, spec: EventSpec, fn: Fn, e: string, on: Fn)
    requires !on.UserFn? && on.serial < vm.serial && fn != on
    ensures Step(vm, Once(vm, spec, fn), e, on)
  {
    var v := vm.(serial := vm.serial + 1);
    assert Listeners(v, e) == Listeners(vm, e);
    OnNamesStep(v, Flatten(spec), OnceWrapper(vm.serial, spec, fn), e, on);
    StepChains(vm, v, Once(vm, spec, fn), e, on);
  }

  lemma OffOneStep(vm: Vm, x: string, fn: Option<Fn>, e: string, on: Fn)
    ensures Step(vm, OffOne(vm, x, fn), e, on)
  {
    if x != e {
      OffOneFrame(vm, x, fn, e);
    } else if Registered(vm, e) && fn.Some? {
      var cbs := Listeners(vm, e);
      var i := LastMatch(cbs, fn.value);
      if i >= 0 {
        assert cbs == cbs[..i] + [cbs[i]] + cbs[i + 1..];
        assert Listeners(OffOne(vm, x, fn), e) == cbs[..i] + cbs[i + 1..];
      }
    }
  }

  lemma {:induction false} OffNamesStep(vm: Vm, names: seq<string>, fn: Option<Fn>, e: string, on: Fn)
    ensures Step(vm, OffNames(vm, names, fn), e, on)
  {
    if names != [] {
      var init := names[..|names| - 1];
      OffNamesStep(vm, init, fn, e, on);
      OffOneStep(OffNames(vm, init, fn), names[|names| - 1], fn, e, on);
      StepChains(vm, OffNames(vm, init, fn), OffNames(vm, names, fn), e, on);
    }
  }

  lemma OffStep(vm: Vm, args: OffArgs, e: string, on: Fn)
    ensures Step(vm, Off(vm, args), e, on)
  {
    if args.OffSome? {
      OffNamesStep(vm, Flatten(args.spec), args.fn, e, on);
    }
  }

  lemma {:induction false} ApplyOpsStep(vm: Vm, ops: seq<Op>, n: nat, e: string, on: Fn)
    requires !on.UserFn? && n <= on.serial < vm.serial
    requires forall i :: 0 <= i < |ops| ==> OpBelow(ops[i], n)
    ensures Step(vm, ApplyOps(vm, ops), e, on)
  {
    if ops != [] {
      var init := ops[..|ops| - 1];
      assert forall i :: 0 <= i < |init| ==> init[i] == ops[i];
      ApplyOpsStep(vm, init, n, e, on);
      var v := ApplyOps(vm, init);
      var op := ops[|ops| - 1];
      assert OpBelow(op, n);
      match op
      case OnOp(spec, fn) =>
        BelowNeverMatches(fn, on, n);
        OnNamesStep(v, Flatten(spec), fn, e, on);
        StepChains(vm, v, On(v, spec, fn), e, on);
      case OnceOp(spec, fn) =>
        BelowNeverMatches(fn, on, n);
        OnceStep(v, spec, fn, e, on);
        StepChains(vm, v, Once(v, spec, fn), e, on);
      case OffOp(args) =>
        OffStep(v, args, e, on);
        StepChains(vm, v, Off(v, args), e, on);
    }
  }

  /** No call, however deeply wrapped, brings `on` back under `e` or adds
      another listener that matches it. */
  lemma InvokeStep(vm: Vm, f: Fn, behave: Behaviour, n: nat, e: string, on: Fn)
    requires !on.UserFn? && n <= on.serial < vm.serial && BehaviourBelow(behave, n)
    ensures Step(vm, Invoke(vm, f, behave).0, e, on)
    decreases f
  {
    match f
    case UserFn(id) =>
      ApplyOpsStep(vm, behave(id).ops, n, e, on);
    case OnceWrapper(_, spec, g) =>
      var v := Off(vm, OffSome(spec, Some(f)));
      OffStep(vm, OffSome(spec, Some(f)), e, on);
      InvokeStep(v, g, behave, n, e, on);
      StepChains(vm, v, Invoke(v, g, behave).0, e, on);
    case OnceHandler(_, spec, g) =>
      var v := Invoke(vm, g, behave).0;
      InvokeStep(vm, g, behave, n, e, on);
      OffStep(v, OffSome(spec, Some(f)), e, on);
      StepChains(vm, v, Off(v, OffSome(spec, Some(f))), e, on);
  }

  lemma {:induction false} DeliverStep(vm: Vm, cbs: seq<Fn>, behave: Behaviour, n: nat, e: string, on: Fn)
    requires !on.UserFn? && n <= on.serial < vm.serial && BehaviourBelow(behave, n)
    ensures Step(vm, Deliver(vm, cbs, behave).0, e, on)
  {
    if cbs != [] {
      var init := cbs[..|cbs| - 1];
      DeliverStep(vm, init, behave, n, e, on);
      var v := Deliver(vm, init, behave).0;
      InvokeStep(v, cbs[|cbs| - 1], behave, n, e, on);
      StepChains(vm, v, Deliver(vm, cbs, behave).0, e, on);
    }
  }

  /** An emission of any event, whatever its listeners do, never brings a
      removed wrapper back: once `on` is gone from `e`, it stays gone. */
  lemma EmitStep(vm: Vm, x: string, behave: Behaviour, n: nat, e: string, on: Fn)
    requires !on.UserFn? && n <= on.serial < vm.serial && BehaviourBelow(behave, n)
    ensures Step(vm, Emit(vm, x, behave).0, e, on)
    ensures on !in Listeners(vm, e) ==> on !in Listeners(Emit(vm, x, behave).0, e)
  {
    if Registered(vm, x) {
      DeliverStep(vm, Listeners(vm, x), behave, n, e, on);
    }
  }

  /** `$off(e, on)` with a single match removes `on` itself. */
  lemma OffRemovesSingleMatch(vm: Vm, e: string, on: Fn)
    requires SingleMatch(vm, e, on)
    ensures on !in Listeners(OffOne(vm, e, Some(on)), e)
  {
    var cbs := Listeners(vm, e);
    if Registered(vm, e) {
      var i := LastMatch(cbs, on);
      if i >= 0 {
        assert cbs[i] == on;
        assert cbs == cbs[..i] + [cbs[i]] + cbs[i + 1..];
        assert multiset(cbs)[on] == multiset(cbs[..i] + cbs[i + 1..])[on] + 1;
      } else {
        assert forall j :: 0 <= j < |cbs| ==> cbs[j] != on;
      }
    }
  }

  /** `$once(e, fn)` on a well-formed instance registers a wrapper that no
      other listener of `e` matches, appended once. */
  lemma OnceRegistersSingleMatch(vm: Vm, e: string, fn: Fn)
    requires WellFormed(vm) && Below(fn, vm.serial)
    ensures
      var on := OnceWrapper(vm.serial, Name(e), fn);
      var w := Once(vm, Name(e), fn);
      && Listeners(w, e) == Listeners(vm, e) + [on]
      && SingleMatch(w, e, on) && w.serial == on.serial + 1
  {
    var on := OnceWrapper(vm.serial, Name(e), fn);
    var v := vm.(serial := vm.serial + 1);
    SingleName(v, e, on, None);
    assert Listeners(v, e) == Listeners(vm, e);
    forall f | f in Listeners(vm, e)
      ensures !Matches(f, on)
    {
      assert Below(f, vm.serial);
      BelowNeverMatches(f, on, vm.serial);
    }
    assert on !in Listeners(vm, e);
    assert multiset(Listeners(vm, e) + [on])[on] == multiset(Listeners(vm, e))[on] + 1;
  }

  /** A `$once` wrapper unregisters itself before its `fn` runs, and
      nothing `fn` does can register it again, so after the call it is no
      longer a listener of its event, whatever `fn` registers or removes
      and whether or not it throws. */
  lemma OnceWrapperRemovesItself(vm: Vm, e: string, on: Fn, behave: Behaviour, n: nat)
    requires on.OnceWrapper? && on.event == Name(e)
    requires n <= on.serial < vm.serial && BehaviourBelow(behave, n)
    requires SingleMatch(vm, e, on)
    ensures var r := Invoke(vm, on, behave);
      && on !in Listeners(r.0, e) && Step(vm, r.0, e, on)
      && r.1 == (if Invoke(Off(vm, OffSome(Name(e), Some(on))), on.fn, behave).1.Threw? then Threw else Returned(false))
  {
    var v := Off(vm, OffSome(Name(e), Some(on)));
    SingleName(vm, e, on, Some(on));
    OffRemovesSingleMatch(vm, e, on);
    OffStep(vm, OffSome(Name(e), Some(on)), e, on);
    InvokeStep(v, on.fn, behave, n, e, on);
    StepChains(vm, v, Invoke(v, on.fn, behave).0, e, on);
  }

  /** A `$once` listener fires once: the emission that finds it registered
      calls it at most once and leaves it unregistered, and later emissions
      do not call it. */
  lemma OnceFiresOnce(vm: Vm, e: string, on: Fn, behave: Behaviour, n: nat)
    requires on.OnceWrapper? && on.event == Name(e)
    requires n <= on.serial < vm.serial && BehaviourBelow(behave, n)
    requires SingleMatch(vm, e, on)
    ensures var first := Emit(vm, e, behave);
      && (on in Listeners(vm, e) <==> exists i :: 0 <= i < |first.1| && first.1[i].listener == on)
      && (forall i, j :: 0 <= i < j < |first.1| && first.1[i].listener == on ==> first.1[j].listener != on)
      && on !in Listeners(first.0, e)
      && forall i :: 0 <= i < |Emit(first.0, e, behave).1| ==> Emit(first.0, e, behave).1[i].listener != on
  {
    var cbs := Listeners(vm, e);
    var first := Emit(vm, e, behave);
    forall i, j | 0 <= i < j < |first.1| && first.1[i].listener == on
      ensures first.1[j].listener != on
    {
      AtMostOnce(cbs, on, i, j);
    }
    if Registered(vm, e) {
      DeliverRemovesWrapper(vm, cbs, e, on, behave, n);
    }
  }

  lemma AtMostOnce(s: seq<Fn>, x: Fn, i: int, j: int)
    requires multiset(s)[x] <= 1 && 0 <= i < j < |s| && s[i] == x
    ensures s[j] != x
  {
    assert s == s[..j] + [s[j]] + s[j + 1..];
    assert s[i] in s[..j];
  }

  /** Delivering to a list that contains `on` (or to any list, when `on`
      is not registered) leaves `on` unregistered. */
  lemma {:induction false} DeliverRemovesWrapper(vm: Vm, cbs: seq<Fn>, e: string, on: Fn, behave: Behaviour, n: nat)
    requires on.OnceWrapper? && on.event == Name(e)
    requires n <= on.serial < vm.serial && BehaviourBelow(behave, n)
    requires SingleMatch(vm, e, on)
    requires on in cbs || on !in Listeners(vm, e)
    ensures on !in Listeners(Deliver(vm, cbs, behave).0, e)
  {
    if cbs != [] {
      var init := cbs[..|cbs| - 1];
      var last := cbs[|cbs| - 1];
      var v := Deliver(vm, init, behave).0;
      DeliverStep(vm, init, behave, n, e, on);
      var r := Invoke(v, last, behave).0;
      assert Deliver(vm, cbs, behave).0 == r;
      if on in init || on !in Listeners(vm, e) {
        DeliverRemovesWrapper(vm, init, e, on, behave, n);
        InvokeStep(v, last, behave, n, e, on);
      } else {
        assert cbs == init + [last];
        assert last == on;
        OnceWrapperRemovesItself(v, e, on, behave, n);
      }
    }
  }

  /** A `createOnceHandler` closure calls `fn` first; when `fn` returns
      anything but `null` the closure then unregisters itself, otherwise
      (or when `fn` throws) the registry is what `fn` left. Either way
      nothing `fn` does registers the closure again. */
  lemma OnceHandlerRemovesItself(vm: Vm, e: string, h: Fn, behave: Behaviour, n: nat)
    requires h.OnceHandler? && h.event == Name(e)
    requires n <= h.serial < vm.serial && BehaviourBelow(behave, n)
    requires SingleMatch(vm, e, h)
    ensures var inner := Invoke(vm, h.fn, behave);
      var r := Invoke(vm, h, behave);
      && r.1 == (if inner.1.Threw? then Threw else Returned(false))
      && (inner.1 == Returned(false) ==> h !in Listeners(r.0, e))
      && (inner.1 != Returned(false) ==> r.0 == inner.0)
      && Step(vm, r.0, e, h)
  {
    var inner := Invoke(vm, h.fn, behave);
    InvokeStep(vm, h.fn, behave, n, e, h);
    if inner.1 == Returned(false) {
      SingleName(inner.0, e, h, Some(h));
      OffRemovesSingleMatch(inner.0, e, h);
      OffOneStep(inner.0, e, Some(h), e, h);
      StepChains(vm, inner.0, OffOne(inner.0, e, Some(h)), e, h);
    }
  }
}

=== FILE: extend.dfy ===
/** Class inheritance through `Vue.extend` (src/core/global-api/extend.js):
    the cid allocator, the per-options-object constructor cache `_Ctor`,
    the effective name and self-registration, and what a new constructor
    records and inherits.

    Constructors live in `ctors`, indexed by cid: the base constructor `Vue`
    is cid 0 and the counter `cid` is always the number of constructors made
    so far. Plain options objects passed by the user live in a heap `objs`,
    because `extend` writes its cache into them and asset registration
    writes their `name`. `mergeOptions` is a parameter. */
module Extension {
  import opened Base

  type Cid = nat
  type Ref = nat

  /** A value passed as a definition or stored in an asset registry. */
  datatype Def =
    | Func(fid: nat)
    | CtorRef(cid: Cid)
    | Obj(ref: Ref)
    | Opaque(oid: nat)
  {
    /** `typeof def === 'function'`: plain functions and constructors. */
    predicate IsFunction()
    {
      Func? || CtorRef?
    }
  }

  /** A plain object in the heap, with the properties this code reads or
      writes: `name`, `bind` and `update`, and the `_Ctor` cache from a
      super cid to the constructor extended from it. */
  datatype PlainObj = PlainObj(name: Option<string>, bind: Option<Def>, update: Option<Def>, ctorCache: map<Cid, Cid>)

  /** The empty object literal `{}`. */
  const EmptyObj: PlainObj := PlainObj(None, None, None, map[])

  /** `ASSET_TYPES`. */
  datatype AssetType = Component | Directive | Filter

  /** A constructor's `options`: its name, `_base`, and the three asset
      registries `components`, `directives` and `filters`. */
  datatype Options = Options(name: Option<string>, base: Cid, components: map<string, Def>,
                             directives: map<string, Def>, filters: map<string, Def>)
  {
    /** `options[type + 's']`. */
    function Assets(t: AssetType): map<string, Def>
    {
      match t
      case Component => components
      case Directive => directives
      case Filter => filters
    }

    /** `options[type + 's'][id] = d`: only that key of that registry. */
    function WithAsset(t: AssetType, id: string, d: Def): (o: Options)
      ensures o.Assets(t) == Assets(t)[id := d]
      ensures forall u :: u != t ==> o.Assets(u) == Assets(u)
      ensures o.name == name && o.base == base
    {
      match t
      case Component => this.(components := components[id := d])
      case Directive => this.(directives := directives[id := d])
      case Filter => this.(filters := filters[id := d])
    }
  }

  /** The identities of the static functions `extend`, `mixin`, `use`,
      `component`, `directive` and `filter` a constructor carries. */
  datatype Statics = Statics(extend: nat, mixin: nat, use: nat, component: nat, directive: nat, filter: nat)

  /** A constructor: `options`, `super`, `superOptions`, `extendOptions`,
      `sealedOptions` (absent on the base constructor) and its statics. */
  datatype Ctor = Ctor(options: Options, super: Option<Cid>, superOptions: Option<Options>,
                       extendOptions: Option<Ref>, sealedOptions: Option<Options>, statics: Statics)

  datatype Api = Api(ctors: seq<Ctor>, objs: map<Ref, PlainObj>, nextRef: Ref)

  /** `mergeOptions(Super.options, extendOptions)`, left opaque. */
  type Merge = (Options, PlainObj) -> Options

  /** A `name` is truthy when present and not the empty string. */
  predicate Truthy(name: Option<string>)
  {
    name.Some? && name.value != ""
  }

  /** `Vue` after global-API setup: cid 0, `_base` itself, the built-in
      components, empty directives and filters. */
  function Boot(builtins: map<string, Def>, statics: Statics): (api: Api)
    ensures Valid(api) && |api.ctors| == 1
  {
    Api([Ctor(Options(None, 0, builtins, map[], map[]), None, None, None, None, statics)], map[], 0)
  }

  /** Every cached constructor was extended from the super cid it is
      cached under, with this very options object. */
  predicate CacheValid(api: Api, r: Ref)
    requires r in api.objs
  {
    forall s :: s in api.objs[r].ctorCache ==>
      var c := api.objs[r].ctorCache[s];
      0 < c < |api.ctors| && api.ctors[c].super == Some(s) && api.ctors[c].extendOptions == Some(r)
  }

  /** The invariants of the registry. The base constructor has no super and
      every other one was extended from an older constructor with an
      options object in the heap; all share the base's statics; heap
      references are below `nextRef`; caches are consistent. */
  predicate Valid(api: Api)
  {
    && |api.ctors| > 0
    && api.ctors[0].super.None?
    && (forall c :: 0 < c < |api.ctors| ==>
          && api.ctors[c].super.Some? && api.ctors[c].super.value < c
          && api.ctors[c].extendOptions.Some? && api.ctors[c].extendOptions.value in api.objs)
    && (forall c :: 0 <= c < |api.ctors| ==> api.ctors[c].statics == api.ctors[0].statics)
    && (forall r :: r in api.objs ==> r < api.nextRef && CacheValid(api, r))
  }

  /** The options object `extend` works with: the one given, or a fresh `{}`. */
  function OptionsRef(api: Api, eo: Option<Ref>): Ref
  {
    eo.GetOr(api.nextRef)
  }

  /** `extendOptions = extendOptions || {}`. */
  function WithOptionsObject(api: Api, eo: Option<Ref>): (r: Api)
    ensures eo.Some? ==> r == api
    ensures eo.None? ==>
      && OptionsRef(api, eo) in r.objs && r.objs[OptionsRef(api, eo)] == EmptyObj
      && (Valid(api) ==> OptionsRef(api, eo) !in api.objs)
      && (forall x :: x in api.objs && x != api.nextRef ==> x in r.objs && r.objs[x] == api.objs[x])
    ensures r.ctors == api.ctors
  {
    if eo.Some? then api
    else api.(objs := api.objs[api.nextRef := EmptyObj], nextRef := api.nextRef + 1)
  }

  /** `name = extendOptions.name || Super.options.name`. */
  function EffectiveName(obj: PlainObj, superOptions: Options): Option<string>
  {
    if Truthy(obj.name) then obj.name else superOptions.name
  }

  /** `Sub.options.components[name] = Sub` when the name is truthy. */
  function SelfRegister(options: Options, name: Option<string>, sub: Cid): Options
  {
    if Truthy(name) then options.(components := options.components[name.value := CtorRef(sub)]) else options
  }

  /** Whether `extend(eo)` on `superCid` hits the cache. */
  predicate Cached(api: Api, superCid: Cid, eo: Option<Ref>)
  {
    eo.Some? && eo.value in api.objs && superCid in api.objs[eo.value].ctorCache
  }

  /** The options object `extend` reads, after `extendOptions || {}`. */
  function OptionsObject(api: Api, eo: Option<Ref>): PlainObj
    requires eo.Some? ==> eo.value in api.objs
  {
    if eo.Some? then api.objs[eo.value] else EmptyObj
  }

  /** The constructor a cache miss creates, as cid `sub`. */
  function SubCtor(sup: Ctor, superCid: Cid, obj: PlainObj, ref: Ref, sub: Cid, merge: Merge): Ctor
  {
    var options := SelfRegister(merge(sup.options, obj), EffectiveName(obj, sup.options), sub);
    Ctor(options, Some(superCid), Some(sup.options), Some(ref), Some(options), sup.statics)
  }

  /** The cache-miss path of `extend`: create, record and cache `Sub`. */
  function NewSub(api: Api, superCid: Cid, eo: Option<Ref>, merge: Merge): (r: (Api, Cid))
    requires Valid(api) && superCid < |api.ctors|
    requires eo.Some? ==> eo.value in api.objs
    requires !Cached(api, superCid, eo)
    ensures Valid(r.0)
    ensures r.1 == |api.ctors|
    ensures r.0.ctors == api.ctors + [SubCtor(api.ctors[superCid], superCid, OptionsObject(api, eo), OptionsRef(api, eo), r.1, merge)]
    ensures
      var obj := OptionsObject(api, eo);
      r.0.objs == WithOptionsObject(api, eo).objs[OptionsRef(api, eo) := obj.(ctorCache := obj.ctorCache[superCid := r.1])]
    ensures r.0.objs.Keys == api.objs.Keys + {OptionsRef(api, eo)}
    ensures forall x :: x in api.objs && x != OptionsRef(api, eo) ==> r.0.objs[x] == api.objs[x]
    ensures r.0.objs[OptionsRef(api, eo)].(ctorCache := map[]) == OptionsObject(api, eo).(ctorCache := map[])
  {
    var api1 := WithOptionsObject(api, eo);
    var ref := OptionsRef(api, eo);
    var obj := OptionsObject(api, eo);
    var sub := |api.ctors|;
    var r := api1.(ctors := api.ctors + [SubCtor(api.ctors[superCid], superCid, obj, ref, sub, merge)],
                   objs := api1.objs[ref := obj.(ctorCache := obj.ctorCache[superCid := sub])]);
    NewSubValid(api, r, superCid, ref, sub);
    CacheWriteFrame(api, eo, r.objs, superCid, sub);
    (r, sub)
  }

  /** Writing the cache entry touches only the options object, and only its
      `_Ctor` property. */
  lemma CacheWriteFrame(api: Api, eo: Option<Ref>, objs: map<Ref, PlainObj>, superCid: Cid, sub: Cid)
    requires Valid(api) && (eo.Some? ==> eo.value in api.objs)
    requires
      var obj := OptionsObject(api, eo);
      objs == WithOptionsObject(api, eo).objs[OptionsRef(api, eo) := obj.(ctorCache := obj.ctorCache[superCid := sub])]
    ensures objs.Keys == api.objs.Keys + {OptionsRef(api, eo)}
    ensures forall x :: x in api.objs && x != OptionsRef(api, eo) ==> objs[x] == api.objs[x]
    ensures objs[OptionsRef(api, eo)].(ctorCache := map[]) == OptionsObject(api, eo).(ctorCache := map[])
  {
  }

  lemma NewSubValid(api: Api, r: Api, superCid: Cid, ref: Ref, sub: Cid)
    requires Valid(api) && superCid < |api.ctors| && sub == |api.ctors|
    requires |r.ctors| == sub + 1 && r.ctors[..sub] == api.ctors
    requires r.ctors[sub].super == Some(superCid) && r.ctors[sub].extendOptions == Some(ref)
    requires r.ctors[sub].statics == api.ctors[superCid].statics
    requires ref in r.objs && r.nextRef >= api.nextRef && ref < r.nextRef
    requires forall x :: x in r.objs && x != ref ==> x in api.objs && r.objs[x] == api.objs[x]
    requires api.objs.Keys <= r.objs.Keys
    requires r.objs[ref].ctorCache.Keys == (if ref in api.objs then api.objs[ref].ctorCache.Keys else {}) + {superCid}
    requires r.objs[ref].ctorCache[superCid] == sub
    requires forall s :: s in r.objs[ref].ctorCache && s != superCid ==>
               ref in api.objs && r.objs[ref].ctorCache[s] == api.objs[ref].ctorCache[s]
    ensures Valid(r)
  {
    forall c | 0 <= c < sub ensures r.ctors[c] == api.ctors[c] {
      assert r.ctors[..sub][c] == r.ctors[c];
    }
    assert forall c :: 0 < c < |r.ctors| ==>
          && r.ctors[c].super.Some? && r.ctors[c].super.value < c
          && r.ctors[c].extendOptions.Some? && r.ctors[c].extendOptions.value in r.objs;
    assert forall c :: 0 <= c < |r.ctors| ==> r.ctors[c].statics == r.ctors[0].statics;
    forall x | x in r.objs ensures x < r.nextRef && CacheValid(r, x) {
      if x != ref {
        assert x in api.objs && CacheValid(api, x);
      } else {
        CacheStaysValid(api, r, superCid, ref, sub);
      }
    }
  }

  lemma CacheStaysValid(api: Api, r: Api, superCid: Cid, ref: Ref, sub: Cid)
    requires Valid(api) && sub == |api.ctors|
    requires |r.ctors| == sub + 1 && forall c :: 0 <= c < sub ==> r.ctors[c] == api.ctors[c]
    requires r.ctors[sub].super == Some(superCid) && r.ctors[sub].extendOptions == Some(ref)
    requires ref in r.objs
    requires r.objs[ref].ctorCache.Keys == (if ref in api.objs then api.objs[ref].ctorCache.Keys else {}) + {superCid}
    requires r.objs[ref].ctorCache[superCid] == sub
    requires forall s :: s in r.objs[ref].ctorCache && s != superCid ==>
               ref in api.objs && r.objs[ref].ctorCache[s] == api.objs[ref].ctorCache[s]
    ensures CacheValid(r, ref)
  {
    forall s | s in r.objs[ref].ctorCache && s != superCid
      ensures var c := r.objs[ref].ctorCache[s];
              0 < c < |r.ctors| && r.ctors[c].super == Some(s) && r.ctors[c].extendOptions == Some(ref)
    {
      assert CacheValid(api, ref);
    }
  }

  /** `Super.extend(extendOptions)`. A cache hit returns the cached
      constructor and changes nothing. Otherwise the new constructor takes
      the next cid (one more than any existing), records its super, the
      super's options and the options object as given, inherits the super's
      statics, registers itself under its effective name, seals a copy of
      its options, and is cached on the options object under the super's
      cid; older constructors and other heap objects stay as they were. */
  function Extend(api: Api, superCid: Cid, eo: Option<Ref>, merge: Merge): (r: (Api, Cid))
    requires Valid(api) && superCid < |api.ctors|
    requires eo.Some? ==> eo.value in api.objs
    ensures Valid(r.0)
    ensures |api.ctors| <= |r.0.ctors| && r.0.ctors[..|api.ctors|] == api.ctors
    ensures 0 < r.1 < |r.0.ctors| && r.0.ctors[r.1].super == Some(superCid)
    ensures r.0.ctors[r.1].extendOptions == Some(OptionsRef(api, eo))
    ensures Cached(api, superCid, eo) ==> r == (api, api.objs[eo.value].ctorCache[superCid])
    ensures !Cached(api, superCid, eo) ==>
      var sup := api.ctors[superCid];
      var obj := OptionsObject(api, eo);
      var sub := r.0.ctors[r.1];
      && r.1 == |api.ctors| == |r.0.ctors| - 1
      && sub.superOptions == Some(sup.options)
      && sub.statics == sup.statics
      && sub.sealedOptions == Some(sub.options)
      && sub.options == SelfRegister(merge(sup.options, obj), EffectiveName(obj, sup.options), r.1)
      && OptionsRef(api, eo) in r.0.objs
      && r.0.objs[OptionsRef(api, eo)].ctorCache == obj.ctorCache[superCid := r.1]
    ensures r.0.objs.Keys == api.objs.Keys + {OptionsRef(api, eo)}
    ensures forall x :: x in api.objs && x != OptionsRef(api, eo) ==> r.0.objs[x] == api.objs[x]
    ensures
      var o := r.0.objs[OptionsRef(api, eo)];
      && o.name == OptionsObject(api, eo).name
      && o.bind == OptionsObject(api, eo).bind
      && o.update == OptionsObject(api, eo).update
  {
    if Cached(api, superCid, eo) then (api, api.objs[eo.value].ctorCache[superCid])
    else
      var r := NewSub(api, superCid, eo, merge);
      assert r.0.objs[OptionsRef(api, eo)].(ctorCache := map[]).name == OptionsObject(api, eo).name;
      r
  }

  /** Extending the same options object from the same super twice yields
      the same constructor, and the second call changes nothing. */
  lemma ExtendIsCached(api: Api, superCid: Cid, ref: Ref, merge: Merge)
    requires Valid(api) && superCid < |api.ctors| && ref in api.objs
    ensures
      var first := Extend(api, superCid, Some(ref), merge);
      Extend(first.0, superCid, Some(ref), merge) == first
  {
  }

  /** The cache is keyed by the super's cid: one options object extended
      from two different supers yields two different constructors, each
      recording its own super. */
  lemma DistinctSupersDistinctCtors(api: Api, s1: Cid, s2: Cid, ref: Ref, merge: Merge)
    requires Valid(api) && s1 < |api.ctors| && s2 < |api.ctors| && s1 != s2 && ref in api.objs
    ensures
      var first := Extend(api, s1, Some(ref), merge);
      var second := Extend(first.0, s2, Some(ref), merge);
      && first.1 != second.1
      && second.0.ctors[first.1].super == Some(s1)
      && second.0.ctors[second.1].super == Some(s2)
  {
    var first := Extend(api, s1, Some(ref), merge);
    var second := Extend(first.0, s2, Some(ref), merge);
    assert second.0.ctors[first.1] == first.0.ctors[first.1];
  }

  /** A constructor whose effective name is truthy finds itself under that
      name in its own `components`, so it can render itself recursively. */
  lemma SubRegistersItself(api: Api, superCid: Cid, eo: Option<Ref>, merge: Merge)
    requires Valid(api) && superCid < |api.ctors|
    requires eo.Some? ==> eo.value in api.objs
    requires !Cached(api, superCid, eo)
    ensures
      var obj := if eo.Some? then api.objs[eo.value] else EmptyObj;
      var name := EffectiveName(obj, api.ctors[superCid].options);
      var r := Extend(api, superCid, eo, merge);
      Truthy(name) ==> name.value in r.0.ctors[r.1].options.components
                       && r.0.ctors[r.1].options.components[name.value] == CtorRef(r.1)
  {
  }

  /** Every constructor, however deep, carries the base constructor's
      `extend`, `mixin`, `use` and asset registers. */
  lemma StaticsInherited(api: Api, superCid: Cid, eo: Option<Ref>, merge: Merge)
    requires Valid(api) && superCid < |api.ctors|
    requires eo.Some? ==> eo.value in api.objs
    ensures
      var r := Extend(api, superCid, eo, merge);
      r.0.ctors[r.1].statics == api.ctors[superCid].statics == api.ctors[0].statics
  {
  }
}

=== FILE: next_tick.dfy ===
/** The deferred-callback queue behind `nextTick` (src/core/util/next-tick.js).

    The host's scheduling primitive (`timerFunc`: a promise continuation, a
    mutation observer, `setImmediate` or `setTimeout`) is abstracted into one
    counter, `scheduled`: how many drains have been handed to the host and
    have not started yet. User callbacks are opaque; what one does when it
    runs is given by a `Reaction` parameter. */
module NextTick {
  import opened Base

  /** Identity of a user callback. */
  type Callback = nat
  /** Identity of the `ctx` receiver a callback is called with. */
  type Ctx = nat

  /** One `nextTick(cb, ctx)` call; `cb` is `None` when no callback is given. */
  datatype Request = Request(cb: Option<Callback>, ctx: Ctx)

  /** The closure that `nextTick` pushes onto `callbacks`. `resolves` says
      whether the promise branch was taken, so that draining the entry
      resolves the returned promise with `ctx`. */
  datatype Entry = Entry(cb: Option<Callback>, ctx: Ctx, resolves: bool)

  /** The module-level state: the `callbacks` array, the `pending` gate and
      the number of drains the host still owes us. The gate is closed
      while `pending` holds (a drain is outstanding) and open otherwise. */
  datatype Queue = Queue(callbacks: seq<Entry>, pending: bool, scheduled: nat)

  /** What a user callback does when invoked: the `nextTick` calls it makes,
      in order, and whether it then throws. */
  datatype Reaction = Reaction(requests: seq<Request>, throws: bool)

  /** What draining one entry is observed to do: a callback ran (and its
      exception, if any, went to `handleError`), or a promise was resolved. */
  datatype Effect = Ran(cb: Callback, ctx: Ctx, reported: bool) | Resolved(ctx: Ctx)

  /** Module load time: no callbacks, not pending, nothing scheduled. */
  const Initial: Queue := Queue([], false, 0)

  /** The gate discipline: at most one drain is outstanding, `pending` says
      exactly whether there is one, and every queued entry has one coming. */
  predicate Valid(q: Queue)
  {
    && q.scheduled <= 1
    && (q.pending <==> q.scheduled == 1)
    && (q.callbacks != [] ==> q.pending)
  }

  /** `nextTick` returns a promise exactly when no callback is given and the
      host has `Promise`. */
  predicate ReturnsPromise(r: Request, hasPromise: bool)
  {
    r.cb.None? && hasPromise
  }

  function Wrap(r: Request, hasPromise: bool): Entry
  {
    Entry(r.cb, r.ctx, ReturnsPromise(r, hasPromise))
  }

  /** `nextTick(cb, ctx)`: push one wrapped entry and, if no drain is
      pending, close the gate and schedule one. */
  function NextTick(q: Queue, r: Request, hasPromise: bool): (q': Queue)
    ensures |q'.callbacks| == |q.callbacks| + 1
    ensures q'.callbacks[..|q.callbacks|] == q.callbacks
    ensures q'.callbacks[|q.callbacks|] == Wrap(r, hasPromise)
    ensures q'.pending
    ensures q'.scheduled - q.scheduled == (if q.pending then 0 else 1)
    ensures Valid(q) ==> Valid(q') && q'.scheduled == 1
  {
    var scheduled := if q.pending then q.scheduled else q.scheduled + 1;
    Queue(q.callbacks + [Wrap(r, hasPromise)], true, scheduled)
  }

  /** The entries a run of requests pushes, in request order. */
  function Entries(reqs: seq<Request>, hasPromise: bool): (es: seq<Entry>)
    ensures |es| == |reqs|
    ensures forall i :: 0 <= i < |reqs| ==> es[i] == Wrap(reqs[i], hasPromise)
  {
    seq(|reqs|, i requires 0 <= i < |reqs| => Wrap(reqs[i], hasPromise))
  }

  lemma EntriesAppend(a: seq<Request>, b: seq<Request>, hasPromise: bool)
    ensures Entries(a + b, hasPromise) == Entries(a, hasPromise) + Entries(b, hasPromise)
  {
  }

  /** Several `nextTick` calls in a row (one synchronous burst). */
  function NextTickAll(q: Queue, reqs: seq<Request>, hasPromise: bool): (q': Queue)
    ensures q'.callbacks == q.callbacks + Entries(reqs, hasPromise)
    ensures q'.pending == (q.pending || reqs != [])
    ensures q'.scheduled == q.scheduled + (if !q.pending && reqs != [] then 1 else 0)
    decreases |reqs|
  {
    if reqs == [] then q
    else
      var init := reqs[..|reqs| - 1];
      EntriesAppend(init, [reqs[|reqs| - 1]], hasPromise);
      assert init + [reqs[|reqs| - 1]] == reqs;
      NextTick(NextTickAll(q, init, hasPromise), reqs[|reqs| - 1], hasPromise)
  }

  /** A whole burst of `nextTick` calls from an idle queue schedules exactly
      one drain, and queues the entries in call order. */
  lemma {:induction false} OneDrainPerBurst(q: Queue, reqs: seq<Request>, hasPromise: bool)
    requires Valid(q) && !q.pending
    requires reqs != []
    ensures NextTickAll(q, reqs, hasPromise).scheduled == 1
    ensures NextTickAll(q, reqs, hasPromise).callbacks == Entries(reqs, hasPromise)
    ensures Valid(NextTickAll(q, reqs, hasPromise))
  {
  }

  /** At module load the gate discipline holds and the gate is open, so
      the first burst of `nextTick` calls schedules exactly one drain. */
  lemma InitialBurst(reqs: seq<Request>, hasPromise: bool)
    requires reqs != []
    ensures Valid(Initial) && !Initial.pending
    ensures NextTickAll(Initial, reqs, hasPromise).scheduled == 1
    ensures NextTickAll(Initial, reqs, hasPromise).callbacks == Entries(reqs, hasPromise)
  {
    OneDrainPerBurst(Initial, reqs, hasPromise);
  }

  /** The `nextTick` calls made while draining entry `e`. */
  function RequestsOf(e: Entry, react: (Callback, Ctx) -> Reaction): seq<Request>
  {
    match e.cb
    case Some(c) => react(c, e.ctx).requests
    case None => []
  }

  /** What draining entry `e` is observed to do. A throwing callback is
      caught and reported; an entry without a callback resolves its promise
      with `ctx` when it has one, and otherwise does nothing. */
  function EffectOf(e: Entry, react: (Callback, Ctx) -> Reaction): seq<Effect>
  {
    match e.cb
    case Some(c) => [Ran(c, e.ctx, react(c, e.ctx).throws)]
    case None => if e.resolves then [Resolved(e.ctx)] else []
  }

  /** The effects of draining `es` one after the other. */
  function Trace(es: seq<Entry>, react: (Callback, Ctx) -> Reaction): seq<Effect>
  {
    if es == [] then []
    else Trace(es[..|es| - 1], react) + EffectOf(es[|es| - 1], react)
  }

  /** The `nextTick` calls made while draining `es`, in the order made. */
  function Requests(es: seq<Entry>, react: (Callback, Ctx) -> Reaction): seq<Request>
  {
    if es == [] then []
    else Requests(es[..|es| - 1], react) + RequestsOf(es[|es| - 1], react)
  }

  /** The callbacks of `es`, in order, skipping entries without one. */
  function Callbacks(es: seq<Entry>): seq<Callback>
  {
    if es == [] then []
    else Callbacks(es[..|es| - 1]) + (match es[|es| - 1].cb case Some(c) => [c] case None => [])
  }

  /** The callbacks that ran, in order, whether or not they threw. */
  function Invoked(t: seq<Effect>): seq<Callback>
  {
    if t == [] then []
    else Invoked(t[..|t| - 1]) + (if t[|t| - 1].Ran? then [t[|t| - 1].cb] else [])
  }

  lemma {:induction false} InvokedAppend(a: seq<Effect>, b: seq<Effect>)
    ensures Invoked(a + b) == Invoked(a) + Invoked(b)
    decreases |b|
  {
    if b != [] {
      var b' := b[..|b| - 1];
      assert (a + b)[..|a + b| - 1] == a + b';
      InvokedAppend(a, b');
    } else {
      assert a + b == a;
    }
  }

  /** A drain runs every callback of its snapshot exactly once and in
      enqueue order, whatever the callbacks do: a callback that throws does
      not keep the later ones from running. */
  lemma {:induction false} DrainRunsSnapshotInOrder(es: seq<Entry>, react: (Callback, Ctx) -> Reaction)
    ensures Invoked(Trace(es, react)) == Callbacks(es)
  {
    if es != [] {
      var init := es[..|es| - 1];
      DrainRunsSnapshotInOrder(init, react);
      InvokedAppend(Trace(init, react), EffectOf(es[|es| - 1], react));
      var e := EffectOf(es[|es| - 1], react);
      if e != [] {
        assert e[..|e| - 1] == [];
      }
    }
  }

  /** An entry pushed without a callback resolves with `ctx` when drained if
      a promise was handed out, and does nothing otherwise. */
  lemma PromiseEntryResolves(ctx: Ctx, hasPromise: bool, react: (Callback, Ctx) -> Reaction)
    ensures Trace([Wrap(Request(None, ctx), hasPromise)], react)
         == (if hasPromise then [Resolved(ctx)] else [])
  {
    assert [Wrap(Request(None, ctx), hasPromise)][..0] == [];
  }

  function Drained(scheduled: nat): nat
  {
    if scheduled > 0 then scheduled - 1 else 0
  }

  /** `flushCallbacks`: one drain starts. The gate is opened and the queue
      emptied before anything runs; then the snapshot runs in order. Entries
      requested while it runs go to the fresh queue and close the gate again,
      scheduling the next drain, instead of running in this one. */
  method FlushCallbacks(q: Queue, react: (Callback, Ctx) -> Reaction, hasPromise: bool)
    returns (q': Queue, trace: seq<Effect>)
    ensures trace == Trace(q.callbacks, react)
    ensures q'.callbacks == Entries(Requests(q.callbacks, react), hasPromise)
    ensures q'.pending <==> q'.callbacks != []
    ensures q'.scheduled == Drained(q.scheduled) + (if q'.pending then 1 else 0)
    ensures Valid(q) ==> Valid(q')
  {
    var copies := q.callbacks;
    q' := Queue([], false, Drained(q.scheduled));
    trace := [];
    var i := 0;
    while i < |copies|
      invariant 0 <= i <= |copies|
      invariant trace == Trace(copies[..i], react)
      invariant q'.callbacks == Entries(Requests(copies[..i], react), hasPromise)
      invariant q'.pending <==> q'.callbacks != []
      invariant q'.scheduled == Drained(q.scheduled) + (if q'.pending then 1 else 0)
    {
      assert copies[..i + 1][..i] == copies[..i];
      EntriesAppend(Requests(copies[..i], react), RequestsOf(copies[i], react), hasPromise);
      q' := NextTickAll(q', RequestsOf(copies[i], react), hasPromise);
      trace := trace + EffectOf(copies[i], react);
      i := i + 1;
    }
    assert copies[..i] == copies;
  }
}

=== FILE: use.dfy ===
/** The idempotent plugin installer `Vue.use` (src/core/global-api/use.js).

    Each constructor keeps its own `_installedPlugins` list, created on the
    first call. A plugin is a value whose identity is the whole record: it
    may carry a function-valued `install`, and it may itself be a function.
    Installing is observed as the one call the installer makes; whether
    that call throws is a parameter. The plugin is listed only after its
    installer returns, so a throwing installer leaves it unlisted. */
module Plugins {
  import opened Base

  datatype Plugin = Plugin(id: nat, hasInstall: bool, isFunction: bool)

  /** Which function `use` calls: `plugin.install` or `plugin` itself. */
  datatype Installer = ViaInstall | Direct

  /** An argument passed to the installer: the receiver constructor
      (`this` of `use`), or one of the extra arguments given to `use`. */
  datatype Arg<A> = Receiver | Extra(value: A)

  /** One installer call: which function, its `this` (the plugin for
      `install.apply(plugin, …)`, `None` for `plugin.apply(null, …)`) and
      its arguments. */
  datatype Invocation<A> = Invocation(plugin: Plugin, via: Installer, thisArg: Option<Plugin>, args: seq<Arg<A>>)

  /** The installed list after the call, the installer call made, and
      whether that call threw, so that the exception left `use`. */
  datatype UseResult<A> = UseResult(installed: seq<Plugin>, call: Option<Invocation<A>>, threw: bool)

  /** `toArray(arguments, 1)` with the receiver unshifted in front. */
  function InstallArgs<A>(extra: seq<A>): (args: seq<Arg<A>>)
    ensures |args| == |extra| + 1 && args[0] == Receiver
    ensures forall i :: 0 <= i < |extra| ==> args[i + 1] == Extra(extra[i])
  {
    [Receiver] + seq(|extra|, i requires 0 <= i < |extra| => Extra(extra[i]))
  }

  /** `Vue.use(plugin, ...extra)` on a receiver whose `_installedPlugins`
      is `installed` (`None` before the first call); `throws` says whether
      the plugin's installer throws when called. */
  function Use<A>(installed: Option<seq<Plugin>>, p: Plugin, extra: seq<A>, throws: bool): (r: UseResult<A>)
    ensures p in installed.GetOr([]) ==> r == UseResult(installed.GetOr([]), None, false)
    ensures r.call.Some? <==> p !in installed.GetOr([]) && (p.hasInstall || p.isFunction)
    ensures r.threw <==> r.call.Some? && throws
    ensures p !in installed.GetOr([]) ==>
      r.installed == if r.threw then installed.GetOr([]) else installed.GetOr([]) + [p]
    ensures r.call.Some? ==>
      && r.call.value.plugin == p
      && r.call.value.args == InstallArgs(extra)
      && (r.call.value.via == ViaInstall <==> p.hasInstall)
      && (r.call.value.thisArg == if p.hasInstall then Some(p) else None)
  {
    var list := installed.GetOr([]);
    if IndexOf(list, p) > -1 then UseResult(list, None, false)
    else
      var call :=
        if p.hasInstall then Some(Invocation(p, ViaInstall, Some(p), InstallArgs(extra)))
        else if p.isFunction then Some(Invocation(p, Direct, None, InstallArgs(extra)))
        else None;
      if call.Some? && throws then UseResult(list, call, true)
      else UseResult(list + [p], call, false)
  }

  /** After `use(p)` the list stays free of duplicates, provided it had
      none before, and lists the plugin exactly once unless its installer
      threw, in which case not at all. */
  lemma UseListsOnce<A>(installed: Option<seq<Plugin>>, p: Plugin, extra: seq<A>, throws: bool)
    requires NoDuplicates(installed.GetOr([]))
    ensures NoDuplicates(Use(installed, p, extra, throws).installed)
    ensures Count(Use(installed, p, extra, throws).installed, p)
         == if Use(installed, p, extra, throws).threw then 0 else 1
  {
    var r := Use(installed, p, extra, throws).installed;
    assert NoDuplicates(r);
    CountNoDuplicates(r, p);
  }

  /** `use(p); use(p)` has the effect of `use(p)` once the first call has
      returned: the second call installs nothing and leaves the list. */
  lemma UseIsIdempotent<A>(installed: Option<seq<Plugin>>, p: Plugin, extra: seq<A>, again: seq<A>, throws: bool, throwsAgain: bool)
    ensures
      var first := Use(installed, p, extra, throws);
      !first.threw ==> Use(Some(first.installed), p, again, throwsAgain) == UseResult(first.installed, None, false)
  {
    var first := Use(installed, p, extra, throws);
    if !first.threw {
      assert p in first.installed;
    }
  }

  /** An installer that throws leaves its plugin unlisted, so the next
      `use` of that plugin calls the installer again. */
  lemma ThrowingInstallerRetried<A>(installed: Option<seq<Plugin>>, p: Plugin, extra: seq<A>, again: seq<A>, throwsAgain: bool)
    requires p !in installed.GetOr([]) && (p.hasInstall || p.isFunction)
    ensures
      var first := Use(installed, p, extra, true);
      && first.threw && first.installed == installed.GetOr([])
      && Use(Some(first.installed), p, again, throwsAgain).call.Some?
  {
  }

  /** One installer call made by a run of `use` calls, and whether it threw. */
  datatype Attempt<A> = Attempt(call: Invocation<A>, threw: bool)

  /** Several `use` calls on one receiver, in order (a throwing call is
      taken to be caught by the caller before the next one): the final list
      and the installer calls made. Each use is the plugin, the extra
      arguments and whether its installer throws. */
  function UseAll<A>(installed: Option<seq<Plugin>>, uses: seq<(Plugin, seq<A>, bool)>): (r: (seq<Plugin>, seq<Attempt<A>>))
  {
    if uses == [] then (installed.GetOr([]), [])
    else
      var (list, calls) := UseAll(installed, uses[..|uses| - 1]);
      var (p, extra, throws) := uses[|uses| - 1];
      var step := Use(Some(list), p, extra, throws);
      (step.installed, calls + (if step.call.Some? then [Attempt(step.call.value, step.threw)] else []))
  }

  /** What a run of `use` calls starting from the list `before` has done,
      given the list `list` and the installer calls `calls` it made: an
      installer that returned normally is never called again, no plugin
      listed beforehand has its installer called, a plugin whose installer
      returned is listed, every call passes the receiver first, and the
      list only grows. */
  ghost predicate InstalledOnce<A>(before: seq<Plugin>, list: seq<Plugin>, calls: seq<Attempt<A>>)
  {
    && (forall i, j :: 0 <= i < j < |calls| && !calls[i].threw ==> calls[i].call.plugin != calls[j].call.plugin)
    && (forall i :: 0 <= i < |calls| ==> calls[i].call.plugin !in before)
    && (forall i :: 0 <= i < |calls| && !calls[i].threw ==> calls[i].call.plugin in list)
    && (forall i :: 0 <= i < |calls| ==> |calls[i].call.args| > 0 && calls[i].call.args[0] == Receiver)
    && (forall q :: q in before ==> q in list)
  }

  /** One more `use` call keeps `InstalledOnce`. */
  lemma UseKeepsInstalledOnce<A>(before: seq<Plugin>, list: seq<Plugin>, calls: seq<Attempt<A>>, p: Plugin, extra: seq<A>, throws: bool)
    requires InstalledOnce(before, list, calls)
    ensures
      var step := Use(Some(list), p, extra, throws);
      InstalledOnce(before, step.installed,
                    calls + (if step.call.Some? then [Attempt(step.call.value, step.threw)] else []))
  {
    var step := Use(Some(list), p, extra, throws);
    assert forall q :: q in list ==> q in step.installed;
  }

  /** However often each plugin is passed to `use`, the run keeps
      `InstalledOnce` from the list it started with, and every plugin
      passed with an installer that does not throw ends up listed. */
  lemma {:induction false} EachPluginInstalledOnce<A>(installed: Option<seq<Plugin>>, uses: seq<(Plugin, seq<A>, bool)>)
    ensures InstalledOnce(installed.GetOr([]), UseAll(installed, uses).0, UseAll(installed, uses).1)
    ensures forall k :: 0 <= k < |uses| && !uses[k].2 ==> uses[k].0 in UseAll(installed, uses).0
  {
    if uses != [] {
      var init := uses[..|uses| - 1];
      var (p, extra, throws) := uses[|uses| - 1];
      EachPluginInstalledOnce(installed, init);
      var (list, calls) := UseAll(installed, init);
      var step := Use(Some(list), p, extra, throws);
      UseKeepsInstalledOnce(installed.GetOr([]), list, calls, p, extra, throws);
      assert UseAll(installed, uses).0 == step.installed;
      assert forall q :: q in list ==> q in step.installed;
      forall k | 0 <= k < |uses| && !uses[k].2
        ensures uses[k].0 in step.installed
      {
        if k < |init| { assert uses[k] == init[k]; }
      }
    }
  }
}
